=== FILE: README.md ===
# tqc-emu fusion and braiding core, in Dafny

A verified model of the integer core of tqc-emu, an emulator for topological quantum computing with Ising anyons:

- **Charges.** The three topological charges psi, vacuum (1) and sigma are written as multiplicity triples `[psi, vacuum, sigma]`. `apply_fusion` multiplies two triples through the Ising fusion table.
- **Schedule.** A fusion schedule of `(time, pair)` nodes is grouped into events (`Fusion::new`).
- **Qubit encoding.** A running-charge walk over the events picks the pairs that make up the qubit encoding (`qubit_enc`).
- **Whole-list check.** `verify_fusion_result` folds the anyons' charges together and compares the result with a charge.
- **Sigma count.** `possible_sigmas` gives the sigma counts that encode a number of qubits.
- **Diagram.** `Fusion::__str__` draws the fusion tree as text.
- **Braid engine.** `Braid` validates and applies swaps of adjacent anyons, keeps a history of the swaps, and maps a recorded swap back to a qubit of the encoding.
- **Basis check.** `verify_basis` as written, next to the check its comments describe.
- **Kronecker product.** `kronecker`, over integer matrices.
- **State.** The `State` container: an anyon list, a fusion schedule, and the size arithmetic and prefix copy of the state-vector buffer.

Modules, one per file:

- `Errors`: error kinds, `Result`, `Option`, and `Run` (a value or a panic).
- `Anyons`: `anyon.rs`.
- `Decimal`: the `{}` formatting of unsigned integers.
- `FusionPairs`: `FusionPair`, its derived order and its `"(a b)"` rendering.
- `Charges`: `canonical_tc` and `apply_fusion`.
- `SystemState`: `util/state.rs`.
- `FusionEngine`: `Fusion::new`, `qubit_enc`, `verify_fusion_result` and `possible_sigmas`.
- `FusionDiagram`: `Fusion::__str__`.
- `Braiding`: `braiding.rs`.
- `Basis`: `util/basis.rs`.
- `KronMath`: `util/math.rs`.

How Rust behaviour is modelled:

- **Panics.** A panic that depends on the data (the grouping of `Fusion::new`) is a `Run` result. A simple guard (fewer than three anyons in `Braid::new`, the `anyons - 1` underflow, an out-of-range index, a shift by 64 or more) is a precondition.
- **Integer widths.** Width is modelled in two places. The `usize` shifts of the state vector are reduced modulo 2^64 (`Shl`). `possible_sigmas` requires its `u32` results to fit. The `u64` sums of `apply_fusion`, the `usize` to `isize` casts of `swap` and the `usize` start column `2 * anyon_1 + 1` of `__str__` are not modelled (see Left out).
- **In-place updates.** Code that changes things in place is imperative Dafny:
  - the loops of `apply_fusion`, `qubit_enc`, `Fusion::new`, `__str__`, `swap`, `verify_basis` and `kronecker`;
  - the `State`, `StateVec` and `Braid` classes.

  Each method is proved against a pure function (`Fuse`, `Walk`, `Group`, `Diagram`, `ApplySwaps`, `FailFrom`, `BasisRules`, `Kronecker`'s block form). The properties are proved as lemmas about those functions.

Places where the code does not compile, and what the model takes as the intent:

- `TopoCharge::value()` is called but never defined. It is taken as psi 0, vacuum 1, sigma 2, the layout documented beside `canonical_tc`.
- `State::swap_anyons` is called but never defined. It exchanges two anyons when both indices are in range, and otherwise fails and changes nothing. `swap` drops its result (there is no `?`), so a pair out of range is a silent no-op that is still recorded.
- `swap` and `swap_to_qubit` return a bare `Error` in place of `Err(...)`. They are taken to return `Err`.
- `Braid::new` calls `Fusion(state)` after moving `state`. It is taken as `Fusion::new` on a copy of the state at construction, so later swaps do not change the braid's fusion.
- `swap_to_qubit` iterates over the `Result` of `qubit_enc`. It is taken to iterate over the `Ok` list, which `QubitEnc` proves is always returned.
- `FusionNode` is `(time, FusionPair)` as in `util/state.rs`. The test module of `fusion.rs` calls `State::add_fusion_op`, which is not defined; it is modelled as an append.

Where the comments and the code disagree, the model follows the code:

- The comment above the fusion table says ψψ = ψ. The table gives ψ⊗ψ = 1, which `FuseOfCharges` states.
- `verify_basis` says it rejects bad bases, but it never returns `false` (see Findings).

## Model

| member | source | states |
|---|---|---|
| Anyons.Value | src/fusion/fusion.rs:52-60 | a charge's index in the triple is below 3: 0 exactly for psi, 1 exactly for the vacuum, 2 exactly for sigma |
| Anyons.ToString | src/anyon.rs:15-21 | every charge name has at least three letters, and the first letter alone tells the three charges apart |
| Anyons.ParseCharge | src/anyon.rs:15-21 | reading a name back gives the charge whose `to_string` it is, and nothing when no charge prints as it |
| Anyons.ToStringRoundTrip | src/anyon.rs:15-21 | parsing the printed name recovers the charge, so `to_string` is injective |
| Anyons.Display | src/anyon.rs:64-71 | the text starts with `Anyon: name=` and the name, and ends with the position text |
| Anyons.DisplayDeterminesCharge | src/anyon.rs:64-71 | two same-named anyons print alike only with equal charges and equal position text |
| Decimal.NatToString | src/fusion/fusion.rs:185-187 | `{}` of an unsigned integer is a non-empty numeral with no leading zero |
| Decimal.DecimalRoundTrip | src/fusion/fusion.rs:185-187 | the printed numeral reads back as the same number |
| FusionPairs.LessIsStrictTotalOrder | src/fusion/fusion.rs:18-26 | the derived order on (anyon_1, anyon_2) is irreflexive, transitive and total |
| FusionPairs.Less | src/fusion/fusion.rs:18-26 | a pair is below another only when the two differ and its first anyon is not larger |
| FusionPairs.InsertSorted | src/fusion/fusion.rs:102 | inserting a new pair into a strictly sorted list keeps it strictly sorted, with exactly one more element |
| FusionPairs.SortSet | src/fusion/fusion.rs:97-102 | a set of pairs sorts to a strictly increasing list with the same elements |
| FusionPairs.SortedUnique | src/fusion/fusion.rs:97-102 | two strictly sorted lists with the same elements are equal, so the sorted encoding does not depend on hash-map order |
| FusionPairs.RenderRoundTrip | src/fusion/fusion.rs:185-187 | the `"(a b)"` rendering of a pair parses back to the pair |
| FusionPairs.Render | src/fusion/fusion.rs:185-187 | the text has at least five characters and is enclosed in parentheses |
| Charges.CanonicalIsOneHot | src/fusion/fusion.rs:53-60 | `canonical_tc(c)` is 1 at `value(c)` and 0 elsewhere |
| Charges.Canonical | src/fusion/fusion.rs:53-60 | the triple of a charge sums to 1 and holds its 1 at `value(c)` |
| Charges.OuterProduct | src/fusion/fusion.rs:130-136 | the filled `tc_mtx` is 3 by 3 with entry (i, j) equal to `a[i] * b[j]` |
| Charges.CellSumStep | src/fusion/fusion.rs:139-143 | each accumulation step adds table cell (i, j) scaled by `a[i] * b[j]` |
| Charges.CellSumIsFuse | src/fusion/fusion.rs:124-143 | the sum over all nine cells is the closed-form fusion product |
| Charges.AccumulateRow | src/fusion/fusion.rs:140-142 | the inner loop over j adds the three cells of row i, each table entry scaled by its outer-product weight, to the running sum |
| Charges.ApplyFusion | src/fusion/fusion.rs:107-146 | the loops return the sum over i, j of `a[i] * b[j] * table[i][j]`, which equals the closed-form product |
| Charges.FuseWithPsi | src/fusion/fusion.rs:124-128 | fusing with psi exchanges the psi and vacuum multiplicities |
| Charges.FuseWithVacuum | src/fusion/fusion.rs:124-128 | the vacuum is a two-sided identity |
| Charges.FuseWithSigma | src/fusion/fusion.rs:124-128 | fusing with sigma sends sigma to psi + 1 and psi and 1 to sigma |
| Charges.FuseOfCharges | src/fusion/fusion.rs:310-326 | psi⊗sigma = sigma, sigma⊗sigma = [1, 1, 0], psi⊗psi = vacuum (the table, not the comment), 1⊗sigma = sigma |
| Charges.FuseMultiplicities | src/fusion/fusion.rs:328-334 | `[4,3,1]` fused with `[2,5,2]` is `[28,25,21]` |
| Charges.FuseCommutes | src/fusion/fusion.rs:124-128 | the symmetric table makes fusion commutative |
| Charges.FuseAssociative | src/fusion/fusion.rs:124-143 | fusion is associative: fusing (a, b) then c gives the same multiplicities as fusing a with (b, c), for all multiplicity triples |
| Charges.FuseAddsLeft | src/fusion/fusion.rs:130-143 | fusion distributes over addition in its first argument |
| Charges.FuseScalesLeft | src/fusion/fusion.rs:130-143 | scaling the first argument scales the product |
| Charges.FuseBilinear | src/fusion/fusion.rs:130-143 | fusion is additive in both arguments and homogeneous, and `[0,0,0]` on either side gives `[0,0,0]` |
| Charges.FoldFuseStep | src/fusion/fusion.rs:153-159 | the left fold over k + 1 charges is the fold over k fused with the next charge |
| Charges.FoldFuseSameTail | src/fusion/fusion.rs:153-159 | two lists whose folds agree on a prefix and whose entries agree after it fold to the same charge |
| Charges.FoldFuseSwapAdjacent | src/fusion/fusion.rs:153-159 | exchanging two neighbouring charges leaves the left fold unchanged |
| SystemState.Shl | src/util/state.rs:96 | a `usize` shift result is below 2^64 |
| SystemState.WordValue | src/util/state.rs:19 | the `usize` word has 2^64 values |
| SystemState.ShlTwoIsPower | src/util/state.rs:96 | `2 << k` is 2^(k+1) for k below 63 |
| SystemState.ShlTwoOverflows | src/util/state.rs:140 | `2 << 63` loses its only bit and gives size 0 |
| SystemState.SetSizeDoublesNew | src/util/state.rs:139-141 | `set_size(n)` gives twice the size `StateVec::new(n)` does |
| SystemState.CopyPrefix | src/util/state.rs:101-103 | the buffer becomes the input followed by its own old tail |
| SystemState.StateVec.constructor | src/util/state.rs:95-122 | size `2 << (n - 1)`; a given vector is copied into the front of zeros; otherwise even entries are one and odd entries zero |
| SystemState.StateVec.SetVec | src/util/state.rs:131-136 | only the first len(input) entries change, to the input |
| SystemState.StateVec.SetSize | src/util/state.rs:139-142 | the size becomes `2 << n` and the buffer zeros of that length |
| SystemState.ExchangePermutes | src/braiding/braiding.rs:42 | exchanging two entries is a permutation and undoes itself |
| SystemState.State.constructor | src/util/state.rs:70-76 | no anyons, no fusion operations, a state vector of size 2 |
| SystemState.State.AddAnyon | src/util/state.rs:79-82 | appends exactly the anyon at the end, returns true, leaves the schedule alone |
| SystemState.State.AddFusionOp | src/fusion/fusion.rs:383-386 | appends exactly the node at the end of the schedule and leaves the anyons alone |
| SystemState.State.SwapAnyons | src/braiding/braiding.rs:42 | succeeds exactly when both indices are in range, then exchanges those two anyons; otherwise nothing changes |
| FusionEngine.NewFusion | src/fusion/fusion.rs:193-209 | the push loop panics exactly when `Group` does, and otherwise returns the anyons with `Group`'s events |
| FusionEngine.PanicIsFinal | src/fusion/fusion.rs:199-206 | a panic on a prefix of the schedule is a panic on the whole |
| FusionEngine.ZeroFirstTimePanics | src/fusion/fusion.rs:200-201 | a first time of 0 underflows `time - 1` and panics |
| FusionEngine.RepeatAfterGapPanics | src/fusion/fusion.rs:200-201 | times 2, 2 index an event that does not exist and panic |
| FusionEngine.GroupConsecutive | src/fusion/fusion.rs:196-206 | for times that start at 1 and never skip or decrease, grouping succeeds, event k is exactly the pairs of time k + 1 in order, and the events laid end to end are all the pairs |
| FusionEngine.JoinsLastEvent | src/fusion/fusion.rs:200-201 | a node at the last seen time is appended to the last event, and the grouping still holds exactly the pairs of each time |
| FusionEngine.OpensNewEvent | src/fusion/fusion.rs:202-205 | a node at the next time opens a new event holding just its pair, and the grouping still holds exactly the pairs of each time |
| FusionEngine.InitialCharges | src/fusion/fusion.rs:66-71 | one canonical triple per anyon, in list order |
| FusionEngine.Walk | src/fusion/fusion.rs:76-82 | the walk keeps one charge per anyon and records a charge for exactly the pairs fused |
| FusionEngine.RunEvents | src/fusion/fusion.rs:76-82 | the double loop computes the walk over all pairs of all events: each pair records `fuse(tcs[a1], tcs[a2])`, which then overwrites `tcs[a1]` |
| FusionEngine.RunEvent | src/fusion/fusion.rs:77-81 | the loop over one event's pairs extends the walk by exactly those pairs, in order |
| FusionEngine.SigmaFreePairs | src/fusion/fusion.rs:97-102 | the result is strictly sorted and holds exactly the recorded pairs with no sigma component |
| FusionEngine.QubitEnc | src/fusion/fusion.rs:65-104 | never an error; the encoding is strictly sorted and holds exactly the fused pairs whose recorded charge has no sigma |
| FusionEngine.ChainChargeAlternates | src/fusion/fusion.rs:124-128 | a sigma fused with k further sigmas has no sigma component exactly for odd k, and then carries both psi and vacuum |
| FusionEngine.ChainEncodingIsOddSteps | src/fusion/fusion.rs:407-482 | n sigmas fused into anyon 0 one step at a time give exactly the encoding pairs (0, j) for odd j |
| FusionEngine.SixSigmaEncoding | src/fusion/fusion.rs:407-482 | six sigmas with the schedule (0 1) … (0 5) at times 1 … 5, grouped as `Fusion::new` does, never panic and encode as `[(0 1), (0 3), (0 5)]` |
| FusionEngine.SixSigmaChainEncoding | src/fusion/fusion.rs:407-482 | six sigmas whose events fuse anyons 1 … 5 into anyon 0, one per step, encode as `[(0 1), (0 3), (0 5)]` |
| FusionEngine.GroupChain | src/fusion/fusion.rs:193-209 | grouping the schedule that fuses anyon j into anyon 0 at time j never panics and gives one single-pair event per time step |
| FusionEngine.ChainWalkRecord | src/fusion/fusion.rs:407-482 | fusing a chain of sigmas into anyon 0 records exactly the pairs (0, 1) … (0, k), pair (0, j) holding the charge after j fusions |
| FusionEngine.VerifyFusionResult | src/fusion/fusion.rs:152-167 | true exactly when the left fold of all the anyons' charges has a positive component at `value(c)` |
| FusionEngine.FusionResultOrderFree | src/fusion/fusion.rs:152-167 | exchanging two neighbouring anyons, hence any reordering, does not change the answer of `verify_fusion_result` |
| FusionEngine.FiveAnyonFusionResult | src/fusion/fusion.rs:393-396 | for anyons σ, σ, ψ, 1, 1 the check holds for the vacuum and psi and fails for sigma |
| FusionEngine.PossibleSigmas | src/fusion/fusion.rs:172-175 | two counts, exactly those n ≥ 1 with (n - 1) / 2 equal to the qubit number (also `minimum_possible_anyons`, fusion.rs:265-267) |
| FusionDiagram.Line | src/fusion/fusion.rs:234-248 | each event line has 2·n glyphs |
| FusionDiagram.Str | src/fusion/fusion.rs:217-263 | the buffer-editing loops produce exactly `Diagram(f)`: names, pipes, one line per event, closing row |
| FusionDiagram.PipeRowIsStart | src/fusion/fusion.rs:227 | the second row is the activity row before any event |
| FusionDiagram.LineDashes | src/fusion/fusion.rs:242-247 | every pair of an event dashes positions 2·a1+1 through 2·a2−1 of its line |
| FusionDiagram.LinePipes | src/fusion/fusion.rs:234-248 | a glyph of an event line is a pipe exactly at an anyon column that is not dashed and whose anyon no earlier event fused away |
| FusionDiagram.LastRowBlanks | src/fusion/fusion.rs:253-260 | an anyon's column in the closing row is blank exactly when it was the second anyon of some pair |
| FusionDiagram.BodyLines | src/fusion/fusion.rs:231-251 | the body after k events is k lines of 2·n glyphs, each followed by a newline, event j's line directly after the j lines before it |
| FusionDiagram.LineStart | src/fusion/fusion.rs:231-251 | event j's line, with its newline, starts at offset j·(2n+1) of the body |
| FusionDiagram.DrawPipes | src/fusion/fusion.rs:233-239 | the fresh glyph buffer has a pipe at the even column of each active anyon and a space everywhere else |
| FusionDiagram.DrawDashes | src/fusion/fusion.rs:244-246 | positions from start up to end become dashes and every other glyph is kept |
| FusionDiagram.DrawEvent | src/fusion/fusion.rs:241-248 | after an event's pairs, a glyph is a dash exactly where some pair covers it and keeps its pipe or space otherwise; an anyon stays active exactly when no pair so far fused it away |
| Braiding.FailFrom | src/braiding/braiding.rs:29-40 | the first failing pair's position lies between the start and the length |
| Braiding.ApplySwaps | src/braiding/braiding.rs:42 | exchanging listed pairs keeps the anyon count |
| Braiding.Braid.constructor | src/braiding/braiding.rs:98-109 | needs at least three anyons; the history starts empty and the fusion is that of the given state |
| Braiding.Braid.Swap | src/braiding/braiding.rs:25-51 | success exactly when no pair fails; the error is the first failing pair's message; the pairs before it are exchanged even on failure; the schedule and the state vector are untouched; only success appends the input list to the history |
| Braiding.Braid.CheckSwap | src/braiding/braiding.rs:30-40 | no error exactly when the pair is adjacent and neither index was swapped earlier in the call; otherwise the non-adjacent message when not adjacent, else the message naming the first index when it was swapped, else the one naming the second |
| Braiding.Braid.SwapToQubit | src/braiding/braiding.rs:54-86 | errors for time 0, time past the history and a swap index past that step, for any braid; otherwise (where the schedule's pairs name existing anyons, as `qubit_enc` needs) the first encoding position matching the swapped pair in either order |
| Braiding.FindQubit | src/braiding/braiding.rs:78-85 | `Some(q)` only for a match at q with none before it; `None` exactly when nothing matches |
| Braiding.AdmissibleIff | src/braiding/braiding.rs:29-47 | a call succeeds exactly when every pair is adjacent and no two pairs share an index |
| Braiding.ApplySwapsPermutes | src/braiding/braiding.rs:42 | the swaps only rearrange the anyons |
| Braiding.DisjointSwapsExchange | src/braiding/braiding.rs:42-46 | for disjoint in-range pairs, each pair's two anyons trade places and all other anyons stay, so the pairs' order does not matter |
| Basis.VerifyBasisAsWritten | src/util/basis.rs:23-69 | as written the check returns true for every schedule |
| Basis.ReversedPairBreaksRules | src/util/basis.rs:43-47 | a schedule whose first pair is reversed breaks the range rule |
| Basis.VerifyBasis | src/util/basis.rs:23-69 | with each `false` kept, the loop returns exactly whether the count, range, not-yet-fused and fused-between rules all hold |
| Basis.CheckOp | src/util/basis.rs:45-60 | with each `false` kept, the checks on one op hold exactly when the pair is ordered and in range, neither index is fused yet and every index between them is fused |
| Basis.AllFusedBetween | src/util/basis.rs:56-60 | the inner loop finds exactly whether every index from the first anyon up to the second is already fused |
| Basis.BasisRulesIff | src/util/basis.rs:49-60 | the rules hold only for a single anyon with no operations: the first anyon must be unfused, yet lies in the range that must be fused |
| KronMath.FillBlock | src/util/math.rs:16-20 | the inner loops set block (i, j) to `a[i][j]` times `b` and keep every other filled block |
| KronMath.Zeros | src/util/math.rs:11 | `DMatrix::zeros` gives a fresh matrix of the requested shape with every entry 0 |
| KronMath.FillRow | src/util/math.rs:17-19 | the loop over l writes row k of `b` scaled by `a[i][j]` into one row of the product and changes nothing else |
| KronMath.FillWindow | src/util/math.rs:16-20 | the loops over k and l make the window at (row, col) equal to `s·b` and change nothing outside it |
| KronMath.FillBlockRow | src/util/math.rs:14-21 | the loop over j fills every block of block row i and keeps the blocks of other block rows |
| KronMath.FillBlocks | src/util/math.rs:13-22 | the loop over i fills every block (i, j) with `a[i][j]·b` |
| KronMath.Kronecker | src/util/math.rs:5-25 | the result is `a_rows·b_rows` by `a_cols·b_cols`; entry (i·b_rows+k, j·b_cols+l) is `a[i][j]·b[k][l]`, i.e. entry (r, c) is `a[r / b_rows][c / b_cols]·b[r % b_rows][c % b_cols]`; a 1 by 1 left operand scales `b` |
| KronMath.EntriesFromBlocks | src/util/math.rs:18 | once all blocks are filled, every entry is given by the div/mod form |
| KronMath.ScalarLeft | src/util/math.rs:11-18 | a 1 by 1 left operand `[[s]]` gives `s·b` |

## Left out

- Charges.ApplyFusion: the `u64` arithmetic of `apply_fusion` is modelled over unbounded naturals, so overflow of large multiplicities is not modelled.
- FusionDiagram.Str: the start column `2 * anyon_1 + 1` is computed over unbounded integers. Its `usize` overflow for `anyon_1 >= 2^63` is not modelled: a debug build panics there, and a release build wraps the start column to `2 * (anyon_1 - 2^63) + 1` and dashes from there up to `2 * anyon_2 - 1`. That is columns 1 onward when `anyon_1 = 2^63`, and nothing when the wrapped start reaches `2 * anyon_2`.
- Braiding.Braid.Swap: the `usize` to `isize` casts in the adjacency test are taken as exact. An index above `isize::MAX` wraps in Rust and is not modelled.
- Braiding.Braid: the Rust braid owns its state; the model holds a reference to the `State` object it was given, so a caller could alias it.
- Complex amplitudes, `StateVec::normalize`, `apply_op` and the `vec` getter: these are floating-point linear algebra. Amplitudes are stored as opaque values and never computed with, and `StateVec::new` does not normalise. `util/statevec.rs` duplicates this container and is not part of this model.
- Swap matrices, unitaries and `braid_mtx`: the source has only TODOs and a 1 by 1 placeholder matrix. The `Braid` string form is a TODO too.
- `StateVec::__str__` and the `{:?}` formatting of positions: floating-point formatting. `Display` takes the position text as a parameter.
- `src/lattice/lattice.rs`: unfinished, does not compile, and depends on an external crate.
- `src/lib.rs`, the pyo3 attributes, getters, setters and `PyResult` wrapping: Python bindings only.
- `src/state.rs`: a duplicate `State` with a conflicting `FusionNode`, and no behaviour.
- `src/error.rs` and `src/util/error.rs`: `Display` formatting only. Errors are a datatype carrying their message.
- Anyon getters and `State::anyons()`/`fusion_ops()`: these are field reads, modelled as the datatype's destructors and the class's fields.
- Rust's panics are not modelled as values except in `Fusion::new`. Elsewhere a panicking input is excluded by a precondition.

## Findings

| source | as written | input that shows it | evidently intended | confidence | as-written member | corrected member |
|---|---|---|---|---|---|---|
| src/util/basis.rs:27, 46, 52, 58 | each failed check evaluates `false;` as a statement and discards it, so `verify_basis` returns `true` for every schedule | 3 anyons, schedule `[(1, (1 0)), (2, (0 2))]`: the first pair is reversed, yet the check returns true | each failed check makes the result `false` | not executed | Basis.VerifyBasisAsWritten (with Basis.ReversedPairBreaksRules) | Basis.VerifyBasis (with Basis.BasisRulesIff) |

=== FILE: anyon.dfy ===
/** Topological charges of the Ising model and the immutable anyon record. */
module Anyons {
  import opened Errors

  /** The three charges of the Ising anyon model. */
  datatype TopoCharge = Psi | Vacuum | Sigma

  /** Index of a charge in a canonical charge triple `[psi, vacuum, sigma]`.
      The Rust code calls `TopoCharge::value()` without defining it; the
      layout it relies on is the one documented beside `canonical_tc`. */
  function Value(c: TopoCharge): (v: nat)
    ensures v < 3
    ensures c == Psi <==> v == 0
    ensures c == Vacuum <==> v == 1
    ensures c == Sigma <==> v == 2
  {
    match c
    case Psi => 0
    case Vacuum => 1
    case Sigma => 2
  }

  /** The printed name of a charge: the three names differ already in
      their first letter. */
  function ToString(c: TopoCharge): (s: string)
    ensures |s| >= 3
    ensures s[0] == 'P' <==> c == Psi
    ensures s[0] == 'V' <==> c == Vacuum
    ensures s[0] == 'S' <==> c == Sigma
  {
    match c
    case Psi => "Psi"
    case Vacuum => "Vacuum"
    case Sigma => "Sigma"
  }

  /** Reads a charge back from its printed name. */
  function ParseCharge(s: string): (r: Option<TopoCharge>)
    ensures r.Some? ==> ToString(r.value) == s
    ensures r.None? <==> forall c: TopoCharge :: ToString(c) != s
  {
    if s == "Psi" then Some(Psi)
    else if s == "Vacuum" then Some(Vacuum)
    else if s == "Sigma" then Some(Sigma)
    else None
  }

  /** Printing then parsing a charge recovers it, so printing is injective. */
  lemma ToStringRoundTrip(c: TopoCharge)
    ensures ParseCharge(ToString(c)) == Some(c)
    ensures forall d: TopoCharge :: ToString(d) == ToString(c) ==> d == c
  {
  }

  /** A position in the plane. The core never computes with it; it is only
      stored and handed back. */
  datatype Position = Position(x: real, y: real)

  /** An anyon: a name, a charge and a position, fixed at construction
      (the datatype has no update operation, and its destructors are the
      getters `name()`, `charge()` and `position()`). */
  datatype Anyon = Anyon(name: string, charge: TopoCharge, position: Position)

  /** `Anyon::__str__`. The rendering of the floating-point position is not
      modelled; `positionText` stands for it. */
  function Display(a: Anyon, positionText: string): (s: string)
    ensures |s| >= 12 + |a.name| && s[..12 + |a.name|] == "Anyon: name=" + a.name
    ensures |s| >= |positionText| && s[|s| - |positionText|..] == positionText
  {
    "Anyon: name=" + a.name + ", charge=" + ToString(a.charge) + ", position=" + positionText
  }

  /** A common prefix cancels. */
  lemma CancelPrefix(h: string, x: string, y: string)
    requires h + x == h + y
    ensures x == y
  {
    assert x == (h + x)[|h|..];
    assert y == (h + y)[|h|..];
  }

  /** Text starting with a charge name determines the charge: the names
      differ in their first letter. */
  lemma ChargeFromFirstLetter(c: TopoCharge, d: TopoCharge, x: string, y: string)
    requires ToString(c) + x == ToString(d) + y
    ensures c == d
  {
    assert (ToString(c) + x)[0] == ToString(c)[0];
    assert (ToString(d) + y)[0] == ToString(d)[0];
  }

  /** `Display` split at the charge name. */
  lemma DisplayParts(a: Anyon, positionText: string)
    ensures Display(a, positionText) ==
      ("Anyon: name=" + a.name + ", charge=") + (ToString(a.charge) + (", position=" + positionText))
  {
  }

  /** Two anyons of the same name print alike only when they carry the same
      charge and their positions print alike: the charge names differ in
      their first letter. */
  lemma {:induction false} DisplayDeterminesCharge(a: Anyon, b: Anyon, pa: string, pb: string)
    requires a.name == b.name
    requires Display(a, pa) == Display(b, pb)
    ensures a.charge == b.charge
    ensures pa == pb
  {
    var head, tail := "Anyon: name=" + a.name + ", charge=", ", position=";
    var ca, cb := ToString(a.charge), ToString(b.charge);
    DisplayParts(a, pa);
    DisplayParts(b, pb);
    CancelPrefix(head, ca + (tail + pa), cb + (tail + pb));
    ChargeFromFirstLetter(a.charge, b.charge, tail + pa, tail + pb);
    CancelPrefix(ca, tail + pa, tail + pb);
    CancelPrefix(tail, pa, pb);
  }
}

=== FILE: basis.dfy ===
/** The basis check: a fusion schedule read as a fusion-tree basis. */
module Basis {
  import opened FusionPairs
  import opened SystemState

  /** `Basis`: the schedule it checks; nothing updates it. */
  datatype Basis = Basis(ops: seq<FusionNode>)

  /** Both indices of every op, the fused-anyon set after those ops. */
  function Fused(ops: seq<FusionNode>): set<nat>
  {
    if ops == [] then {} else Fused(ops[..|ops| - 1]) + {ops[|ops| - 1].1.anyon1, ops[|ops| - 1].1.anyon2}
  }

  /** The checks meant for one op, given the anyons fused before it: an
      ordered pair in range, neither index fused yet, and every index from
      the first up to (not including) the second already fused. */
  predicate OpOk(p: FusionPair, fused: set<nat>, anyons: nat)
  {
    p.anyon1 < p.anyon2 < anyons
    && p.anyon1 !in fused && p.anyon2 !in fused
    && forall x :: p.anyon1 <= x < p.anyon2 ==> x in fused
  }

  /** The rules the comments of `verify_basis` describe: one op fewer than
      there are anyons, and each op passing its checks. */
  predicate BasisRules(ops: seq<FusionNode>, anyons: nat)
    requires anyons >= 1
  {
    |ops| == anyons - 1 && forall k :: 0 <= k < |ops| ==> OpOk(ops[k].1, Fused(ops[..k]), anyons)
  }

  /** `verify_basis` as written: each failed check evaluates `false` as a
      statement and drops it, so the loop runs to the end and the result is
      `true`. `anyons - 1` underflows for no anyons. */
  method VerifyBasisAsWritten(basis: Basis, anyons: nat) returns (b: bool)
    requires anyons >= 1
    ensures b
  {
    var ops := basis.ops;
    var _ := |ops| != anyons - 1;
    var currentTime: nat := 0;
    var fused: set<nat> := {};
    for k := 0 to |ops|
      invariant fused == Fused(ops[..k])
    {
      var (t, pair) := ops[k];
      var a1, a2 := pair.anyon1, pair.anyon2;
      if t > currentTime {
        currentTime := t;
      }
      var _ := !(a1 < a2 && a2 < anyons);
      var _ := a1 in fused || a2 in fused;
      var x := a1;
      while x < a2
        invariant x == a1 || a1 < x <= a2
      {
        var _ := x !in fused;
        x := x + 1;
      }
      assert ops[..k + 1][..k] == ops[..k];
      fused := fused + {a1, a2};
    }
    b := true;
  }

  /** Three anyons, the first op fusing anyons 1 and 0: the pair is out of
      order, so the rules reject the schedule (the check as written accepts
      it, like every schedule). */
  lemma ReversedPairBreaksRules()
    ensures !BasisRules([(1, FusionPair(1, 0)), (2, FusionPair(0, 2))], 3)
  {
    var ops := [(1, FusionPair(1, 0)), (2, FusionPair(0, 2))];
    assert ops[..0] == [];
    assert !OpOk(ops[0].1, Fused(ops[..0]), 3);
  }

  /** The inner loop of `verify_basis`: every index from `a1` up to (not
      including) `a2` has been fused. */
  method AllFusedBetween(a1: nat, a2: nat, fused: set<nat>) returns (between: bool)
    ensures between == forall y :: a1 <= y < a2 ==> y in fused
  {
    between := true;
    var x := a1;
    while x < a2
      invariant x == a1 || a1 < x <= a2
      invariant between == forall y :: a1 <= y < x ==> y in fused
    {
      if x !in fused {
        between := false;
      }
      x := x + 1;
    }
  }

  /** The checks of `verify_basis` on one op, each failure recorded. */
  method CheckOp(pair: FusionPair, fused: set<nat>, anyons: nat) returns (ok: bool)
    ensures ok == OpOk(pair, fused, anyons)
  {
    var a1, a2 := pair.anyon1, pair.anyon2;
    ok := true;
    if !(a1 < a2 && a2 < anyons) {
      ok := false;
    }
    if a1 in fused || a2 in fused {
      ok := false;
    }
    var between := AllFusedBetween(a1, a2, fused);
    if !between {
      ok := false;
    }
  }

  /** `verify_basis` with each dropped `false` recorded in the result: the
      loop still runs to the end, and the result is whether every check held. */
  method VerifyBasis(basis: Basis, anyons: nat) returns (b: bool)
    requires anyons >= 1
    ensures b == BasisRules(basis.ops, anyons)
  {
    var ops := basis.ops;
    var valid := true;
    if |ops| != anyons - 1 {
      valid := false;
    }
    var currentTime: nat := 0;
    var fused: set<nat> := {};
    for k := 0 to |ops|
      invariant fused == Fused(ops[..k])
      invariant valid == (|ops| == anyons - 1 && forall m :: 0 <= m < k ==> OpOk(ops[m].1, Fused(ops[..m]), anyons))
    {
      var (t, pair) := ops[k];
      if t > currentTime {
        currentTime := t;
      }
      var opValid := CheckOp(pair, fused, anyons);
      valid := valid && opValid;
      assert ops[..k + 1][..k] == ops[..k];
      fused := fused + {pair.anyon1, pair.anyon2};
    }
    assert ops[..|ops|] == ops;
    b := valid;
  }

  /** The rules as coded contradict each other for any op: its first anyon
      must be unfused, yet lies in the range `anyon_1..anyon_2` that must be
      fused (the source's comment speaks of the anyons strictly between).
      So only the empty schedule of a single anyon passes. */
  lemma BasisRulesIff(ops: seq<FusionNode>, anyons: nat)
    requires anyons >= 1
    ensures BasisRules(ops, anyons) <==> ops == [] && anyons == 1
  {
    if ops != [] {
      var p := ops[0].1;
      assert !OpOk(p, Fused(ops[..0]), anyons) by {
        if p.anyon1 < p.anyon2 && p.anyon1 !in Fused(ops[..0]) {
          assert p.anyon1 <= p.anyon1 < p.anyon2;
        }
      }
    }
  }
}

=== FILE: braiding.dfy ===
/** The braid engine: swaps of adjacent anyons, validated per call and
    recorded as a history, and the lookup of the qubit a swap acts on. */
module Braiding {
  import opened Errors
  import opened Anyons
  import opened Decimal
  import opened FusionPairs
  import opened SystemState
  import opened FusionEngine

  /** A requested exchange of two anyon positions. */
  type SwapPair = (nat, nat)

  /** The two indices differ by exactly one. */
  predicate Adjacent(a: nat, b: nat)
  {
    a == b + 1 || b == a + 1
  }

  /** Every index named by the pairs. */
  function Used(ps: seq<SwapPair>): set<nat>
  {
    if ps == [] then {} else Used(ps[..|ps| - 1]) + {ps[|ps| - 1].0, ps[|ps| - 1].1}
  }

  /** The checks `swap` makes on one pair, in the source's order, given the
      indices already swapped in this call. */
  function CheckPair(p: SwapPair, used: set<nat>): Option<Error>
  {
    var (a, b) := p;
    if !Adjacent(a, b) then
      Some(BraidingError("Indices " + NatToString(a) + " and " + NatToString(b) + " are not adjacent"))
    else if a in used then
      Some(BraidingError("Index " + NatToString(a) + " has already been swapped in this operation"))
    else if b in used then
      Some(BraidingError("Index " + NatToString(b) + " has already been swapped in this operation"))
    else None
  }

  /** The position of the first pair, from `k` on, that fails its checks, or
      the length when none does. */
  function FailFrom(pairs: seq<SwapPair>, k: nat, used: set<nat>): (r: nat)
    requires k <= |pairs|
    ensures k <= r <= |pairs|
    decreases |pairs| - k
  {
    if k == |pairs| then k
    else if CheckPair(pairs[k], used).Some? then k
    else FailFrom(pairs, k + 1, used + {pairs[k].0, pairs[k].1})
  }

  function FirstFailure(pairs: seq<SwapPair>): nat
  {
    FailFrom(pairs, 0, {})
  }

  /** No two pairs share an index. */
  predicate Disjoint(ps: seq<SwapPair>)
  {
    forall j, k :: 0 <= j < k < |ps| ==>
      ps[j].0 != ps[k].0 && ps[j].0 != ps[k].1 && ps[j].1 != ps[k].0 && ps[j].1 != ps[k].1
  }

  /** What `swap_anyons` does to the list for each pair, in order: exchange
      when both indices are in range, nothing otherwise. */
  function ApplySwaps(s: seq<Anyon>, ps: seq<SwapPair>): (r: seq<Anyon>)
    ensures |r| == |s|
  {
    if ps == [] then s
    else
      var t := ApplySwaps(s, ps[..|ps| - 1]);
      var (a, b) := ps[|ps| - 1];
      if a < |t| && b < |t| then Exchange(t, a, b) else t
  }

  /** `Braid`: the state it braids, the history of swap calls and the
      fusion built from the state at construction. */
  class Braid {
    var state: State
    var swaps: seq<seq<SwapPair>>
    var fusion: Fusion

    /** `Braid::new`: at least three anyons (fewer panic), an empty history
        and the fusion of the state (whose construction must not panic). */
    constructor(state: State)
      requires |state.anyons| >= 3
      requires Group(state.fusionOps).Returned?
      ensures this.state == state && swaps == []
      ensures fusion == Fusion(state.anyons, Group(state.fusionOps).value.0)
    {
      var built := NewFusion(state);
      this.state := state;
      swaps := [];
      fusion := built.value;
    }

    /** The checks of `swap` on one pair, in order: adjacency, then each
        index not yet swapped in this call. */
    static method CheckSwap(a: nat, b: nat, swapped: set<nat>) returns (failure: Option<Error>)
      ensures failure.None? <==> Adjacent(a, b) && a !in swapped && b !in swapped
      ensures !Adjacent(a, b) ==> failure == Some(BraidingError(
        "Indices " + NatToString(a) + " and " + NatToString(b) + " are not adjacent"))
      ensures Adjacent(a, b) && a in swapped ==> failure == Some(BraidingError(
        "Index " + NatToString(a) + " has already been swapped in this operation"))
      ensures Adjacent(a, b) && a !in swapped && b in swapped ==> failure == Some(BraidingError(
        "Index " + NatToString(b) + " has already been swapped in this operation"))
      ensures failure == CheckPair((a, b), swapped)
    {
      if !Adjacent(a, b) {
        return Some(BraidingError("Indices " + NatToString(a) + " and " + NatToString(b) + " are not adjacent"));
      }
      if a in swapped {
        return Some(BraidingError("Index " + NatToString(a) + " has already been swapped in this operation"));
      }
      if b in swapped {
        return Some(BraidingError("Index " + NatToString(b) + " has already been swapped in this operation"));
      }
      failure := None;
    }

    /** `swap`: checks each pair in turn and exchanges it at once. The first
        failing pair ends the call with its error; the pairs before it stay
        exchanged and nothing is recorded. When all pass, the list of pairs
        is appended to the history. */
    method Swap(pairs: seq<SwapPair>) returns (r: Result<()>)
      modifies this, state
      ensures r.Ok? <==> FirstFailure(pairs) == |pairs|
      ensures r.Err? ==> Some(r.error) == CheckPair(pairs[FirstFailure(pairs)], Used(pairs[..FirstFailure(pairs)]))
      ensures state == old(state) && fusion == old(fusion)
      ensures state.anyons == ApplySwaps(old(state.anyons), pairs[..FirstFailure(pairs)])
      ensures state.fusionOps == old(state.fusionOps) && state.stateVec == old(state.stateVec)
      ensures swaps == if r.Ok? then old(swaps) + [pairs] else old(swaps)
    {
      var applied: seq<SwapPair> := [];
      var swapped: set<nat> := {};
      assert pairs[..0] == [];
      for k := 0 to |pairs|
        invariant applied == pairs[..k] && swapped == Used(applied)
        invariant FirstFailure(pairs) == FailFrom(pairs, k, swapped)
        invariant state == old(state) && fusion == old(fusion) && swaps == old(swaps)
        invariant state.anyons == ApplySwaps(old(state.anyons), applied)
        invariant state.fusionOps == old(state.fusionOps) && state.stateVec == old(state.stateVec)
      {
        var (a, b) := pairs[k];
        var failure := CheckSwap(a, b, swapped);
        if failure.Some? {
          return Err(failure.value);
        }
        var _ := state.SwapAnyons(a, b);
        assert pairs[..k + 1][..k] == pairs[..k];
        applied := applied + [(a, b)];
        swapped := swapped + {a, b};
      }
      assert pairs[..|pairs|] == pairs;
      swaps := swaps + [applied];
      r := Ok(());
    }

    /** `swap_to_qubit`: the position in the qubit encoding of the pair
        swapped at step `time` (counted from 1), number `swapIndex`. */
    method SwapToQubit(time: nat, swapIndex: nat) returns (r: Result<Option<nat>>)
      requires 0 < time <= |swaps| && swapIndex < |swaps[time - 1]| ==> PairsInRange(fusion)
      ensures time == 0 || time > |swaps| ==> r == Err(BraidingError(
        "Time cannot be 0 or greater than the length of the swaps. Inputted time: "
        + NatToString(time) + ", swaps length: " + NatToString(|swaps|)))
      ensures 0 < time <= |swaps| && swapIndex >= |swaps[time - 1]| ==> r == Err(BraidingError(
        "Swap index " + NatToString(swapIndex) + " is greater than the number of swaps "
        + NatToString(|swaps[time - 1]|)))
      ensures 0 < time <= |swaps| && swapIndex < |swaps[time - 1]| ==>
        r == Ok(FindQubit(QubitEncoding(fusion), swaps[time - 1][swapIndex]))
    {
      if time == 0 || time > |swaps| {
        return Err(BraidingError(
          "Time cannot be 0 or greater than the length of the swaps. Inputted time: "
          + NatToString(time) + ", swaps length: " + NatToString(|swaps|)));
      }
      var swap := swaps[time - 1];
      if swapIndex >= |swap| {
        return Err(BraidingError(
          "Swap index " + NatToString(swapIndex) + " is greater than the number of swaps "
          + NatToString(|swap|)));
      }
      var encoding := QubitEnc(fusion);
      r := Ok(FindQubit(encoding.value, swap[swapIndex]));
    }
  }

  /** The encoding pair matches the swap in either order. */
  predicate Matches(p: FusionPair, s: SwapPair)
  {
    (s.0 == p.anyon1 && s.1 == p.anyon2) || (s.0 == p.anyon2 && s.1 == p.anyon1)
  }

  /** `find_map` over the enumerated encoding: the first matching position. */
  function FindQubit(encoding: seq<FusionPair>, s: SwapPair): (r: Option<nat>)
    ensures r.Some? ==> r.value < |encoding| && Matches(encoding[r.value], s)
    ensures r.Some? ==> forall q :: 0 <= q < r.value ==> !Matches(encoding[q], s)
    ensures r.None? <==> forall q :: 0 <= q < |encoding| ==> !Matches(encoding[q], s)
  {
    if encoding == [] then None
    else if Matches(encoding[0], s) then Some(0)
    else match FindQubit(encoding[1..], s)
      case None => None
      case Some(q) => Some(q + 1)
  }

  /** A call succeeds exactly when every pair is adjacent and no index is
      named by two pairs. */
  lemma {:induction false} AdmissibleIff(pairs: seq<SwapPair>)
    ensures FirstFailure(pairs) == |pairs| <==>
      (forall k :: 0 <= k < |pairs| ==> Adjacent(pairs[k].0, pairs[k].1)) && Disjoint(pairs)
  {
    assert pairs[..0] == [];
    AdmissibleFrom(pairs, 0);
    if forall m :: 0 <= m < |pairs| ==> Admitted(pairs, m) {
      forall j, k | 0 <= j < k < |pairs|
        ensures pairs[j].0 != pairs[k].0 && pairs[j].0 != pairs[k].1 && pairs[j].1 != pairs[k].0 && pairs[j].1 != pairs[k].1
      {
        assert Admitted(pairs, k);
      }
      forall k | 0 <= k < |pairs|
        ensures Adjacent(pairs[k].0, pairs[k].1)
      {
        assert Admitted(pairs, k);
      }
    }
  }

  lemma {:induction false} AdmissibleFrom(pairs: seq<SwapPair>, k: nat)
    requires k <= |pairs|
    ensures FailFrom(pairs, k, Used(pairs[..k])) == |pairs| <==>
      forall m :: k <= m < |pairs| ==> Admitted(pairs, m)
    decreases |pairs| - k
  {
    if k < |pairs| {
      UsedMembers(pairs[..k]);
      assert pairs[..k + 1][..k] == pairs[..k];
      assert Used(pairs[..k + 1]) == Used(pairs[..k]) + {pairs[k].0, pairs[k].1};
      AdmissibleFrom(pairs, k + 1);
      var a, b := pairs[k].0, pairs[k].1;
      if CheckPair(pairs[k], Used(pairs[..k])).Some? {
        if Adjacent(a, b) && a in Used(pairs[..k]) {
          var j :| 0 <= j < k && (pairs[..k][j].0 == a || pairs[..k][j].1 == a);
          assert pairs[..k][j] == pairs[j];
          assert !Admitted(pairs, k);
        } else if Adjacent(a, b) && b in Used(pairs[..k]) {
          var j :| 0 <= j < k && (pairs[..k][j].0 == b || pairs[..k][j].1 == b);
          assert pairs[..k][j] == pairs[j];
          assert pairs[j].0 == pairs[k].1 || pairs[j].1 == pairs[k].1;
          assert !Admitted(pairs, k);
        } else {
          assert !Admitted(pairs, k);
        }
      } else {
        assert Admitted(pairs, k) by {
          forall j | 0 <= j < k
            ensures pairs[j].0 != a && pairs[j].0 != b && pairs[j].1 != a && pairs[j].1 != b
          {
            assert pairs[..k][j] == pairs[j];
          }
        }
      }
    }
  }

  /** Pair `m` is adjacent and shares no index with an earlier pair. */
  predicate Admitted(pairs: seq<SwapPair>, m: int)
    requires 0 <= m < |pairs|
  {
    Adjacent(pairs[m].0, pairs[m].1) &&
    forall j :: 0 <= j < m ==>
      pairs[j].0 != pairs[m].0 && pairs[j].0 != pairs[m].1 && pairs[j].1 != pairs[m].0 && pairs[j].1 != pairs[m].1
  }

  /** The indices `Used` collects are those of the pairs. */
  lemma {:induction false} UsedMembers(ps: seq<SwapPair>)
    ensures forall x :: x in Used(ps) <==> exists j :: 0 <= j < |ps| && (ps[j].0 == x || ps[j].1 == x)
  {
    if ps != [] {
      var init := ps[..|ps| - 1];
      UsedMembers(init);
      forall x ensures x in Used(ps) <==> exists j :: 0 <= j < |ps| && (ps[j].0 == x || ps[j].1 == x)
      {
        if x in Used(init) {
          var j :| 0 <= j < |init| && (init[j].0 == x || init[j].1 == x);
          assert ps[j] == init[j];
        }
        if exists j :: 0 <= j < |ps| && (ps[j].0 == x || ps[j].1 == x) {
          var j :| 0 <= j < |ps| && (ps[j].0 == x || ps[j].1 == x);
          if j < |init| {
            assert init[j] == ps[j];
          }
        }
      }
    }
  }

  /** The swaps only rearrange the anyons. */
  lemma {:induction false} ApplySwapsPermutes(s: seq<Anyon>, ps: seq<SwapPair>)
    ensures multiset(ApplySwaps(s, ps)) == multiset(s)
  {
    if ps != [] {
      var t := ApplySwaps(s, ps[..|ps| - 1]);
      ApplySwapsPermutes(s, ps[..|ps| - 1]);
      var (a, b) := ps[|ps| - 1];
      if a < |t| && b < |t| {
        ExchangePermutes(t, a, b);
      }
    }
  }

  /** In a disjoint list the last pair's indices are not used before it. */
  lemma LastPairFresh(ps: seq<SwapPair>)
    requires ps != [] && Disjoint(ps)
    ensures ps[|ps| - 1].0 !in Used(ps[..|ps| - 1]) && ps[|ps| - 1].1 !in Used(ps[..|ps| - 1])
  {
    var init, a, b := ps[..|ps| - 1], ps[|ps| - 1].0, ps[|ps| - 1].1;
    UsedMembers(init);
    forall j | 0 <= j < |init|
      ensures init[j].0 != a && init[j].1 != a && init[j].0 != b && init[j].1 != b
    {
      assert init[j] == ps[j];
    }
  }

  /** With disjoint pairs in range, each pair's two positions end up
      exchanged and every other position keeps its anyon, whatever the
      order of the pairs. */
  lemma {:induction false} DisjointSwapsExchange(s: seq<Anyon>, ps: seq<SwapPair>)
    requires Disjoint(ps)
    requires forall k :: 0 <= k < |ps| ==> ps[k].0 < |s| && ps[k].1 < |s| && ps[k].0 != ps[k].1
    ensures forall k :: 0 <= k < |ps| ==>
      ApplySwaps(s, ps)[ps[k].0] == s[ps[k].1] && ApplySwaps(s, ps)[ps[k].1] == s[ps[k].0]
    ensures forall i :: 0 <= i < |s| && i !in Used(ps) ==> ApplySwaps(s, ps)[i] == s[i]
  {
    if ps != [] {
      var init := ps[..|ps| - 1];
      var t := ApplySwaps(s, init);
      DisjointSwapsExchange(s, init);
      LastPairFresh(ps);
      var (a, b) := ps[|ps| - 1];
      var r := ApplySwaps(s, ps);
      assert r == Exchange(t, a, b);
      forall k | 0 <= k < |ps|
        ensures r[ps[k].0] == s[ps[k].1] && r[ps[k].1] == s[ps[k].0]
      {
        if k < |init| {
          assert init[k] == ps[k];
          assert ps[k].0 != a && ps[k].0 != b && ps[k].1 != a && ps[k].1 != b;
          assert r[ps[k].0] == t[ps[k].0] && r[ps[k].1] == t[ps[k].1];
        }
      }
      forall i | 0 <= i < |s| && i !in Used(ps)
        ensures r[i] == s[i]
      {
        assert i !in Used(init) && i != a && i != b;
      }
    }
  }
}

=== FILE: charge.dfy ===
/** Canonical charge triples and the Ising fusion calculus on them. */
module Charges {
  import opened Anyons

  /** Multiplicities of the three charges: the Rust `[u64; 3]`, laid out as
      `[psi, vacuum, sigma]` so that `Value(c)` indexes the entry of `c`. */
  type CanonicalTC = t: seq<nat> | |t| == 3 witness [0, 0, 0]

  /** `canonical_tc`: the one-hot triple of a single charge. */
  function Canonical(c: TopoCharge): (t: CanonicalTC)
    ensures t[0] + t[1] + t[2] == 1 && t[Value(c)] == 1
  {
    match c
    case Psi => [1, 0, 0]
    case Vacuum => [0, 1, 0]
    case Sigma => [0, 0, 1]
  }

  /** Each canonical triple is one-hot at the index of its charge. */
  lemma CanonicalIsOneHot(c: TopoCharge)
    ensures forall k :: 0 <= k < 3 ==> Canonical(c)[k] == if k == Value(c) then 1 else 0
  {
  }

  /** The source's fusion table: row = index of the left operand's charge,
      column = index of the right operand's charge, entry = resulting triple. */
  const FusionRules: seq<seq<CanonicalTC>> := [
    [[0, 1, 0], [1, 0, 0], [0, 0, 1]],
    [[1, 0, 0], [0, 1, 0], [0, 0, 1]],
    [[0, 0, 1], [0, 0, 1], [1, 1, 0]]
  ]

  /** Component-wise sum (the `add` closure). */
  function Add(a: CanonicalTC, b: CanonicalTC): CanonicalTC
  {
    [a[0] + b[0], a[1] + b[1], a[2] + b[2]]
  }

  /** Every component multiplied by `w` (the `arr_scale` closure). */
  function Scale(a: CanonicalTC, w: nat): CanonicalTC
  {
    [a[0] * w, a[1] * w, a[2] * w]
  }

  const Zero: CanonicalTC := [0, 0, 0]

  /** The Ising fusion product of two multiplicity triples, written channel by
      channel: psi arises from psi x 1, 1 x psi and sigma x sigma; the vacuum
      from psi x psi, 1 x 1 and sigma x sigma; sigma from every pairing of
      sigma with psi or 1. */
  function Fuse(a: CanonicalTC, b: CanonicalTC): CanonicalTC
  {
    [a[0] * b[1] + a[1] * b[0] + a[2] * b[2],
     a[0] * b[0] + a[1] * b[1] + a[2] * b[2],
     a[0] * b[2] + a[1] * b[2] + a[2] * b[0] + a[2] * b[1]]
  }

  /** The first `n` cells, in row-major order, of the table sum
      `sum over i, j of FusionRules[i][j] * a[i] * b[j]`. */
  function CellSum(a: CanonicalTC, b: CanonicalTC, n: nat): CanonicalTC
    requires n <= 9
  {
    if n == 0 then Zero
    else
      var i, j := (n - 1) / 3, (n - 1) % 3;
      Add(CellSum(a, b, n - 1), Scale(FusionRules[i][j], a[i] * b[j]))
  }

  /** The table's first row contributes psi x (1, psi, sigma). */
  lemma {:induction false} CellSumFirstRow(a: CanonicalTC, b: CanonicalTC)
    ensures CellSum(a, b, 3) == [a[0] * b[1], a[0] * b[0], a[0] * b[2]]
  {
    assert CellSum(a, b, 1) == [0, a[0] * b[0], 0];
    assert CellSum(a, b, 2) == [a[0] * b[1], a[0] * b[0], 0];
  }

  /** The second row adds 1 x (psi, 1, sigma). */
  lemma {:induction false} CellSumSecondRow(a: CanonicalTC, b: CanonicalTC)
    ensures CellSum(a, b, 6) == Add(CellSum(a, b, 3), [a[1] * b[0], a[1] * b[1], a[1] * b[2]])
  {
    var c := CellSum(a, b, 3);
    assert CellSum(a, b, 4) == Add(c, [a[1] * b[0], 0, 0]);
    assert CellSum(a, b, 5) == Add(c, [a[1] * b[0], a[1] * b[1], 0]);
  }

  /** The third row adds sigma x (psi + 1 + sigma) in the sigma-pairing channels. */
  lemma {:induction false} CellSumThirdRow(a: CanonicalTC, b: CanonicalTC)
    ensures CellSum(a, b, 9) == Add(CellSum(a, b, 6), [a[2] * b[2], a[2] * b[2], a[2] * b[0] + a[2] * b[1]])
  {
    var c := CellSum(a, b, 6);
    assert CellSum(a, b, 7) == Add(c, [0, 0, a[2] * b[0]]);
    assert CellSum(a, b, 8) == Add(c, [0, 0, a[2] * b[0] + a[2] * b[1]]);
  }

  /** The whole table sum is the Ising product. */
  lemma {:induction false} CellSumIsFuse(a: CanonicalTC, b: CanonicalTC)
    ensures CellSum(a, b, 9) == Fuse(a, b)
  {
    CellSumFirstRow(a, b);
    CellSumSecondRow(a, b);
    CellSumThirdRow(a, b);
  }

  /** Adding cell `3 * i + j`, which is row `i`, column `j` of the table. */
  lemma CellSumStep(a: CanonicalTC, b: CanonicalTC, i: nat, j: nat)
    requires i < 3 && j < 3
    ensures CellSum(a, b, 3 * i + j + 1) == Add(CellSum(a, b, 3 * i + j), Scale(FusionRules[i][j], a[i] * b[j]))
  {
    assert (3 * i + j) / 3 == i && (3 * i + j) % 3 == j;
  }

  /** The outer-product matrix `tc_mtx` of `apply_fusion`, filled cell by cell. */
  method OuterProduct(a: CanonicalTC, b: CanonicalTC) returns (m: array2<nat>)
    ensures fresh(m) && m.Length0 == 3 && m.Length1 == 3
    ensures forall i, j :: 0 <= i < 3 && 0 <= j < 3 ==> m[i, j] == a[i] * b[j]
  {
    m := new nat[3, 3]((i, j) => 0);
    for i := 0 to 3
      invariant forall i', j' :: 0 <= i' < i && 0 <= j' < 3 ==> m[i', j'] == a[i'] * b[j']
    {
      for j := 0 to 3
        invariant forall i', j' :: 0 <= i' < i && 0 <= j' < 3 ==> m[i', j'] == a[i'] * b[j']
        invariant forall j' :: 0 <= j' < j ==> m[i, j'] == a[i] * b[j']
      {
        m[i, j] := a[i] * b[j];
      }
    }
  }

  /** One row of the accumulation in `apply_fusion`: the three table entries
      of row `i`, each scaled by its outer-product weight, added in order. */
  method AccumulateRow(tcMtx: array2<nat>, a: CanonicalTC, b: CanonicalTC, i: nat, acc: CanonicalTC)
    returns (output: CanonicalTC)
    requires i < 3 && tcMtx.Length0 == 3 && tcMtx.Length1 == 3
    requires forall i', j' :: 0 <= i' < 3 && 0 <= j' < 3 ==> tcMtx[i', j'] == a[i'] * b[j']
    requires acc == CellSum(a, b, 3 * i)
    ensures output == CellSum(a, b, 3 * i + 3)
  {
    output := acc;
    for j := 0 to 3
      invariant output == CellSum(a, b, 3 * i + j)
    {
      var w := tcMtx[i, j];
      CellSumStep(a, b, i, j);
      output := Add(output, Scale(FusionRules[i][j], w));
    }
  }

  /** `apply_fusion`: builds the outer-product matrix, then accumulates every
      table entry scaled by its weight. */
  method ApplyFusion(a: CanonicalTC, b: CanonicalTC) returns (r: CanonicalTC)
    ensures r == Fuse(a, b)
    ensures r == CellSum(a, b, 9)
  {
    var tcMtx := OuterProduct(a, b);
    var output := Zero;
    for i := 0 to 3
      invariant output == CellSum(a, b, 3 * i)
      modifies {}
    {
      output := AccumulateRow(tcMtx, a, b, i, output);
    }
    CellSumIsFuse(a, b);
    r := output;
  }

  /** Fusing with psi swaps the psi and vacuum channels. */
  lemma FuseWithPsi(a: CanonicalTC)
    ensures Fuse(a, Canonical(Psi)) == [a[1], a[0], a[2]]
  {
  }

  /** Fusing with the vacuum, on either side, changes nothing. */
  lemma FuseWithVacuum(a: CanonicalTC)
    ensures Fuse(a, Canonical(Vacuum)) == a
    ensures Fuse(Canonical(Vacuum), a) == a
  {
  }

  /** Fusing with sigma turns each sigma into psi + 1 and each psi or 1
      into sigma. */
  lemma FuseWithSigma(a: CanonicalTC)
    ensures Fuse(a, Canonical(Sigma)) == [a[2], a[2], a[0] + a[1]]
  {
  }

  /** The single-charge fusions the source's tests and table comments state:
      psi x sigma = sigma, sigma x sigma = psi + 1 and psi x psi = 1 (the
      comment above the table says psi; the table itself says 1). */
  lemma FuseOfCharges()
    ensures Fuse(Canonical(Psi), Canonical(Sigma)) == Canonical(Sigma)
    ensures Fuse(Canonical(Sigma), Canonical(Sigma)) == [1, 1, 0]
    ensures Fuse(Canonical(Psi), Canonical(Psi)) == Canonical(Vacuum)
    ensures Fuse(Canonical(Vacuum), Canonical(Sigma)) == Canonical(Sigma)
  {
  }

  /** The multiplicity test of the source: [4, 3, 1] x [2, 5, 2]. */
  lemma FuseMultiplicities()
    ensures Fuse([4, 3, 1], [2, 5, 2]) == [28, 25, 21]
  {
  }

  /** The table is symmetric, so fusion is commutative. */
  lemma FuseCommutes(a: CanonicalTC, b: CanonicalTC)
    ensures Fuse(a, b) == Fuse(b, a)
  {
  }

  /** Products of three factors regroup. */
  lemma MulAssoc(x: int, y: int, z: int)
    ensures (x * y) * z == x * (y * z)
  {
  }

  /** The psi channel of `(a x b) x c` and `a x (b x c)` expands to
      the same monomials. */
  lemma PsiChannelAssociates(a0: int, a1: int, a2: int, b0: int, b1: int, b2: int, c0: int, c1: int, c2: int)
    ensures (a0 * b1 + a1 * b0 + a2 * b2) * c1 + (a0 * b0 + a1 * b1 + a2 * b2) * c0 + (a0 * b2 + a1 * b2 + a2 * b0 + a2 * b1) * c2
         == a0 * (b0 * c0 + b1 * c1 + b2 * c2) + a1 * (b0 * c1 + b1 * c0 + b2 * c2) + a2 * (b0 * c2 + b1 * c2 + b2 * c0 + b2 * c1)
  {
    assert (a0 * b1 + a1 * b0 + a2 * b2) * c1 == (a0 * b1) * c1 + (a1 * b0) * c1 + (a2 * b2) * c1;
    MulAssoc(a0, b1, c1);
    MulAssoc(a1, b0, c1);
    MulAssoc(a2, b2, c1);
    assert (a0 * b0 + a1 * b1 + a2 * b2) * c0 == (a0 * b0) * c0 + (a1 * b1) * c0 + (a2 * b2) * c0;
    MulAssoc(a0, b0, c0);
    MulAssoc(a1, b1, c0);
    MulAssoc(a2, b2, c0);
    assert (a0 * b2 + a1 * b2 + a2 * b0 + a2 * b1) * c2 == (a0 * b2) * c2 + (a1 * b2) * c2 + (a2 * b0) * c2 + (a2 * b1) * c2;
    MulAssoc(a0, b2, c2);
    MulAssoc(a1, b2, c2);
    MulAssoc(a2, b0, c2);
    MulAssoc(a2, b1, c2);
    assert a0 * (b0 * c0 + b1 * c1 + b2 * c2) == a0 * (b0 * c0) + a0 * (b1 * c1) + a0 * (b2 * c2);
    assert a1 * (b0 * c1 + b1 * c0 + b2 * c2) == a1 * (b0 * c1) + a1 * (b1 * c0) + a1 * (b2 * c2);
    assert a2 * (b0 * c2 + b1 * c2 + b2 * c0 + b2 * c1) == a2 * (b0 * c2) + a2 * (b1 * c2) + a2 * (b2 * c0) + a2 * (b2 * c1);
  }

  /** The vacuum channel of `(a x b) x c` and `a x (b x c)` expands to
      the same monomials. */
  lemma VacuumChannelAssociates(a0: int, a1: int, a2: int, b0: int, b1: int, b2: int, c0: int, c1: int, c2: int)
    ensures (a0 * b1 + a1 * b0 + a2 * b2) * c0 + (a0 * b0 + a1 * b1 + a2 * b2) * c1 + (a0 * b2 + a1 * b2 + a2 * b0 + a2 * b1) * c2
         == a0 * (b0 * c1 + b1 * c0 + b2 * c2) + a1 * (b0 * c0 + b1 * c1 + b2 * c2) + a2 * (b0 * c2 + b1 * c2 + b2 * c0 + b2 * c1)
  {
    assert (a0 * b1 + a1 * b0 + a2 * b2) * c0 == (a0 * b1) * c0 + (a1 * b0) * c0 + (a2 * b2) * c0;
    MulAssoc(a0, b1, c0);
    MulAssoc(a1, b0, c0);
    MulAssoc(a2, b2, c0);
    assert (a0 * b0 + a1 * b1 + a2 * b2) * c1 == (a0 * b0) * c1 + (a1 * b1) * c1 + (a2 * b2) * c1;
    MulAssoc(a0, b0, c1);
    MulAssoc(a1, b1, c1);
    MulAssoc(a2, b2, c1);
    assert (a0 * b2 + a1 * b2 + a2 * b0 + a2 * b1) * c2 == (a0 * b2) * c2 + (a1 * b2) * c2 + (a2 * b0) * c2 + (a2 * b1) * c2;
    MulAssoc(a0, b2, c2);
    MulAssoc(a1, b2, c2);
    MulAssoc(a2, b0, c2);
    MulAssoc(a2, b1, c2);
    assert a0 * (b0 * c1 + b1 * c0 + b2 * c2) == a0 * (b0 * c1) + a0 * (b1 * c0) + a0 * (b2 * c2);
    assert a1 * (b0 * c0 + b1 * c1 + b2 * c2) == a1 * (b0 * c0) + a1 * (b1 * c1) + a1 * (b2 * c2);
    assert a2 * (b0 * c2 + b1 * c2 + b2 * c0 + b2 * c1) == a2 * (b0 * c2) + a2 * (b1 * c2) + a2 * (b2 * c0) + a2 * (b2 * c1);
  }

  /** The sigma channel of `(a x b) x c` and `a x (b x c)` expands to
      the same monomials. */
  lemma SigmaChannelAssociates(a0: int, a1: int, a2: int, b0: int, b1: int, b2: int, c0: int, c1: int, c2: int)
    ensures (a0 * b1 + a1 * b0 + a2 * b2) * c2 + (a0 * b0 + a1 * b1 + a2 * b2) * c2 + (a0 * b2 + a1 * b2 + a2 * b0 + a2 * b1) * c0 + (a0 * b2 + a1 * b2 + a2 * b0 + a2 * b1) * c1
         == a0 * (b0 * c2 + b1 * c2 + b2 * c0 + b2 * c1) + a1 * (b0 * c2 + b1 * c2 + b2 * c0 + b2 * c1) + a2 * (b0 * c1 + b1 * c0 + b2 * c2) + a2 * (b0 * c0 + b1 * c1 + b2 * c2)
  {
    assert (a0 * b1 + a1 * b0 + a2 * b2) * c2 == (a0 * b1) * c2 + (a1 * b0) * c2 + (a2 * b2) * c2;
    MulAssoc(a0, b1, c2);
    MulAssoc(a1, b0, c2);
    MulAssoc(a2, b2, c2);
    assert (a0 * b0 + a1 * b1 + a2 * b2) * c2 == (a0 * b0) * c2 + (a1 * b1) * c2 + (a2 * b2) * c2;
    MulAssoc(a0, b0, c2);
    MulAssoc(a1, b1, c2);
    MulAssoc(a2, b2, c2);
    assert (a0 * b2 + a1 * b2 + a2 * b0 + a2 * b1) * c0 == (a0 * b2) * c0 + (a1 * b2) * c0 + (a2 * b0) * c0 + (a2 * b1) * c0;
    MulAssoc(a0, b2, c0);
    MulAssoc(a1, b2, c0);
    MulAssoc(a2, b0, c0);
    MulAssoc(a2, b1, c0);
    assert (a0 * b2 + a1 * b2 + a2 * b0 + a2 * b1) * c1 == (a0 * b2) * c1 + (a1 * b2) * c1 + (a2 * b0) * c1 + (a2 * b1) * c1;
    MulAssoc(a0, b2, c1);
    MulAssoc(a1, b2, c1);
    MulAssoc(a2, b0, c1);
    MulAssoc(a2, b1, c1);
    assert a0 * (b0 * c2 + b1 * c2 + b2 * c0 + b2 * c1) == a0 * (b0 * c2) + a0 * (b1 * c2) + a0 * (b2 * c0) + a0 * (b2 * c1);
    assert a1 * (b0 * c2 + b1 * c2 + b2 * c0 + b2 * c1) == a1 * (b0 * c2) + a1 * (b1 * c2) + a1 * (b2 * c0) + a1 * (b2 * c1);
    assert a2 * (b0 * c1 + b1 * c0 + b2 * c2) == a2 * (b0 * c1) + a2 * (b1 * c0) + a2 * (b2 * c2);
    assert a2 * (b0 * c0 + b1 * c1 + b2 * c2) == a2 * (b0 * c0) + a2 * (b1 * c1) + a2 * (b2 * c2);
  }

  /** Fusion is associative: fusing three charges gives the same multiplicities
      whichever pair is fused first. */
  lemma {:induction false} FuseAssociative(a: CanonicalTC, b: CanonicalTC, c: CanonicalTC)
    ensures Fuse(Fuse(a, b), c) == Fuse(a, Fuse(b, c))
  {
    PsiChannelAssociates(a[0], a[1], a[2], b[0], b[1], b[2], c[0], c[1], c[2]);
    VacuumChannelAssociates(a[0], a[1], a[2], b[0], b[1], b[2], c[0], c[1], c[2]);
    SigmaChannelAssociates(a[0], a[1], a[2], b[0], b[1], b[2], c[0], c[1], c[2]);
    var l, r := Fuse(Fuse(a, b), c), Fuse(a, Fuse(b, c));
    assert l[0] == r[0] && l[1] == r[1] && l[2] == r[2];
  }

  /** The channel polynomials are additive in the left operand's
      multiplicities `p, v, s` (plus `q, w, t`). */
  lemma AddsLeftPolynomials(p: int, v: int, s: int, q: int, w: int, t: int, p': int, v': int, s': int)
    ensures (p + q) * v' + (v + w) * p' + (s + t) * s' == (p * v' + v * p' + s * s') + (q * v' + w * p' + t * s')
    ensures (p + q) * p' + (v + w) * v' + (s + t) * s' == (p * p' + v * v' + s * s') + (q * p' + w * v' + t * s')
    ensures (p + q) * s' + (v + w) * s' + (s + t) * p' + (s + t) * v'
         == (p * s' + v * s' + s * p' + s * v') + (q * s' + w * s' + t * p' + t * v')
  {
  }

  /** Fusion is additive in its left operand. */
  lemma {:induction false} FuseAddsLeft(a: CanonicalTC, a': CanonicalTC, b: CanonicalTC)
    ensures Fuse(Add(a, a'), b) == Add(Fuse(a, b), Fuse(a', b))
  {
    AddsLeftPolynomials(a[0], a[1], a[2], a'[0], a'[1], a'[2], b[0], b[1], b[2]);
    var l, r := Fuse(Add(a, a'), b), Add(Fuse(a, b), Fuse(a', b));
    assert l[0] == r[0] && l[1] == r[1] && l[2] == r[2];
  }

  /** Scaling the left operand scales the product. */
  lemma {:induction false} FuseScalesLeft(a: CanonicalTC, b: CanonicalTC, w: nat)
    ensures Fuse(Scale(a, w), b) == Scale(Fuse(a, b), w)
  {
    var p, v, s := a[0], a[1], a[2];
    var p', v', s' := b[0], b[1], b[2];
    assert p * w * v' + v * w * p' + s * w * s' == (p * v' + v * p' + s * s') * w;
    assert p * w * p' + v * w * v' + s * w * s' == (p * p' + v * v' + s * s') * w;
    assert p * w * s' + v * w * s' + s * w * p' + s * w * v' == (p * s' + v * s' + s * p' + s * v') * w;
  }

  /** Fusion is bilinear; in particular fusing with the zero triple gives zero. */
  lemma {:induction false} FuseBilinear(a: CanonicalTC, a': CanonicalTC, b: CanonicalTC, w: nat)
    ensures Fuse(Add(a, a'), b) == Add(Fuse(a, b), Fuse(a', b))
    ensures Fuse(b, Add(a, a')) == Add(Fuse(b, a), Fuse(b, a'))
    ensures Fuse(Scale(a, w), b) == Scale(Fuse(a, b), w)
    ensures Fuse(Zero, b) == Zero && Fuse(b, Zero) == Zero
  {
    FuseAddsLeft(a, a', b);
    FuseCommutes(b, Add(a, a'));
    FuseCommutes(b, a);
    FuseCommutes(b, a');
    FuseScalesLeft(a, b, w);
    FuseCommutes(b, Zero);
  }

  /** Left fold of `Fuse` over a non-empty list, as `reduce` performs it. */
  function FoldFuse(cs: seq<CanonicalTC>): CanonicalTC
    requires |cs| > 0
  {
    if |cs| == 1 then cs[0] else Fuse(FoldFuse(cs[..|cs| - 1]), cs[|cs| - 1])
  }

  /** One more step of the left fold. */
  lemma FoldFuseStep(cs: seq<CanonicalTC>, k: nat)
    requires 0 < k < |cs|
    ensures FoldFuse(cs[..k + 1]) == Fuse(FoldFuse(cs[..k]), cs[k])
  {
    assert cs[..k + 1][..k] == cs[..k];
  }

  /** Two lists whose folds agree on a prefix of length `m`, and which agree
      entry by entry after it, fold to the same charge. */
  lemma {:induction false} FoldFuseSameTail(s: seq<CanonicalTC>, t: seq<CanonicalTC>, m: nat)
    requires 0 < m <= |s| == |t|
    requires FoldFuse(s[..m]) == FoldFuse(t[..m])
    requires forall i :: m <= i < |s| ==> s[i] == t[i]
    ensures FoldFuse(s) == FoldFuse(t)
    decreases |s| - m
  {
    if m == |s| {
      assert s[..m] == s && t[..m] == t;
    } else {
      FoldFuseStep(s, m);
      FoldFuseStep(t, m);
      FoldFuseSameTail(s, t, m + 1);
    }
  }

  /** Exchanging two neighbouring charges does not change the left fold:
      by associativity and commutativity of fusion. Neighbouring exchanges
      generate every reordering, so the fold does not depend on the order. */
  lemma {:induction false} FoldFuseSwapAdjacent(cs: seq<CanonicalTC>, k: nat)
    requires k + 1 < |cs|
    ensures FoldFuse(cs[k := cs[k + 1]][k + 1 := cs[k]]) == FoldFuse(cs)
  {
    var t := cs[k := cs[k + 1]][k + 1 := cs[k]];
    var x, y := cs[k], cs[k + 1];
    if k == 0 {
      assert FoldFuse(t[..2]) == Fuse(y, x) by {
        assert t[..2][..1] == [y];
      }
      assert FoldFuse(cs[..2]) == Fuse(x, y) by {
        assert cs[..2][..1] == [x];
      }
      FuseCommutes(x, y);
    } else {
      assert t[..k] == cs[..k];
      var before := FoldFuse(cs[..k]);
      FoldFuseStep(t, k);
      FoldFuseStep(t, k + 1);
      FoldFuseStep(cs, k);
      FoldFuseStep(cs, k + 1);
      FuseAssociative(before, y, x);
      FuseAssociative(before, x, y);
      FuseCommutes(x, y);
    }
    FoldFuseSameTail(t, cs, k + 2);
  }
}

=== FILE: decimal.dfy ===
/** Decimal rendering of unsigned integers, as Rust's `{}` formats a `usize`,
    and the matching reader. */
module Decimal {

  predicate IsDigit(ch: char)
  {
    '0' <= ch <= '9'
  }

  /** A non-empty run of decimal digits. */
  predicate IsNumeral(s: string)
  {
    |s| > 0 && forall i :: 0 <= i < |s| ==> IsDigit(s[i])
  }

  function DigitChar(d: nat): (ch: char)
    requires d < 10
    ensures IsDigit(ch)
  {
    (48 + d) as char
  }

  function DigitValue(ch: char): (d: nat)
    requires IsDigit(ch)
    ensures d < 10
  {
    (ch as int) - 48
  }

  /** Most significant digit first, no leading zeros. */
  function NatToString(n: nat): (s: string)
    ensures IsNumeral(s)
    ensures |s| > 1 ==> s[0] != '0'
    decreases n
  {
    if n < 10 then [DigitChar(n)] else NatToString(n / 10) + [DigitChar(n % 10)]
  }

  /** The number a run of digits denotes. */
  function DecimalValue(s: string): nat
    requires forall i :: 0 <= i < |s| ==> IsDigit(s[i])
  {
    if s == [] then 0 else DecimalValue(s[..|s| - 1]) * 10 + DigitValue(s[|s| - 1])
  }

  /** Reading a rendered number gives the number back. */
  lemma {:induction false} DecimalRoundTrip(n: nat)
    ensures DecimalValue(NatToString(n)) == n
    decreases n
  {
    var s := NatToString(n);
    if n < 10 {
      assert s[..|s| - 1] == [];
    } else {
      var hi := NatToString(n / 10);
      assert s == hi + [DigitChar(n % 10)];
      assert s[..|s| - 1] == hi;
      DecimalRoundTrip(n / 10);
    }
  }
}

=== FILE: diagram.dfy ===
/** The text drawing of a fusion tree (`Fusion::__str__`): a row of names,
    a row of pipes, one line per event and a closing row. */
module FusionDiagram {
  import opened Anyons
  import opened FusionPairs
  import opened FusionEngine

  /** The glyph drawn between two fused anyons. */
  const Dash: char := '─'

  /** Each anyon's name followed by a space. */
  function NameRow(anyons: seq<Anyon>): string
  {
    if anyons == [] then "" else NameRow(anyons[..|anyons| - 1]) + anyons[|anyons| - 1].name + " "
  }

  /** `"| "` per anyon. */
  function PipeRow(n: nat): (s: string)
  {
    seq(2 * n, i => if i % 2 == 0 then '|' else ' ')
  }

  /** Some pair of `ps` draws a dash at position `i`: positions `2 * a1 + 1`
      up to, not including, `2 * a2`. */
  predicate Covered(ps: seq<FusionPair>, i: int)
  {
    exists q :: 0 <= q < |ps| && 2 * ps[q].anyon1 + 1 <= i < 2 * ps[q].anyon2
  }

  /** Anyon `i` has been the second anyon of one of the pairs `ps`. */
  predicate FusedAway(ps: seq<FusionPair>, i: int)
  {
    exists q :: 0 <= q < |ps| && ps[q].anyon2 == i
  }

  /** The activity flags before event `k`: an anyon stays active until it
      is the second anyon of a pair. */
  function ActiveFlags(f: Fusion, k: nat): (active: seq<bool>)
    requires k <= |f.events|
    ensures |active| == |f.anyons|
  {
    seq(|f.anyons|, i => !FusedAway(Flatten(f.events[..k]), i))
  }

  /** A pipe at the even position of each active anyon, spaces elsewhere. */
  function Row(active: seq<bool>): (s: string)
    ensures |s| == 2 * |active|
  {
    seq(2 * |active|, i requires 0 <= i < 2 * |active| => if i % 2 == 0 && active[i / 2] then '|' else ' ')
  }

  /** The line of event `k`: the pipes of the anyons active before it,
      overdrawn by the dashes of its pairs. */
  function Line(f: Fusion, k: nat): (s: string)
    requires k < |f.events|
    ensures |s| == 2 * |f.anyons|
  {
    var pipes := Row(ActiveFlags(f, k));
    seq(2 * |f.anyons|, i requires 0 <= i < 2 * |f.anyons| => if Covered(f.events[k], i) then Dash else pipes[i])
  }

  /** Lines laid end to end, each ended by a newline. */
  function Lines(ls: seq<string>): string
  {
    if ls == [] then "" else Lines(ls[..|ls| - 1]) + ls[|ls| - 1] + "\n"
  }

  /** The lines of the first `k` events. */
  function EventLines(f: Fusion, k: nat): (ls: seq<string>)
    requires k <= |f.events|
    ensures |ls| == k
  {
    seq(k, j requires 0 <= j < k => Line(f, j))
  }

  /** The lines of the first `k` events, each ended by a newline. */
  function Body(f: Fusion, k: nat): string
    requires k <= |f.events|
  {
    Lines(EventLines(f, k))
  }

  /** One more event adds its line. */
  lemma BodyStep(f: Fusion, k: nat)
    requires k < |f.events|
    ensures Body(f, k + 1) == Body(f, k) + Line(f, k) + "\n"
  {
    assert EventLines(f, k + 1)[..k] == EventLines(f, k);
  }

  /** The whole drawing. */
  function Diagram(f: Fusion): string
  {
    NameRow(f.anyons) + "\n" + PipeRow(|f.anyons|) + "\n" + Body(f, |f.events|)
      + Row(ActiveFlags(f, |f.events|))
  }

  /** Every pair's second anyon names an anyon of the fusion: the index the
      source uses to clear its activity flag. */
  predicate SecondsInRange(f: Fusion)
  {
    forall k, p :: 0 <= k < |f.events| && p in f.events[k] ==> p.anyon2 < |f.anyons|
  }

  /** `__str__`: per event, a fresh glyph buffer gets the pipes of the active
      anyons, then each pair dashes its span and retires its second anyon. */
  method Str(f: Fusion) returns (s: string)
    requires SecondsInRange(f)
    ensures s == Diagram(f)
  {
    var n := |f.anyons|;
    var active := new bool[n](_ => true);
    var topLevel := NameRow(f.anyons);
    var level2 := PipeRow(n);
    var body: string := "";
    assert f.events[..0] == [];
    for k := 0 to |f.events|
      invariant active.Length == n
      invariant active[..] == ActiveFlags(f, k)
      invariant body == Body(f, k)
    {
      var levelVec := DrawPipes(active);
      ghost var pipes := levelVec[..];
      var event := f.events[k];
      DrawEvent(levelVec, active, event, Flatten(f.events[..k]), pipes);
      LineFromGlyphs(f, k, pipes, levelVec[..]);
      ActiveAfter(f, k, active[..]);
      BodyStep(f, k);
      body := body + levelVec[..] + "\n";
    }
    assert f.events[..|f.events|] == f.events;
    s := topLevel + "\n" + level2 + "\n" + body + Row(active[..]);
  }

  /** The loop over the pairs of one event: each pair dashes its span in
      the glyph buffer and retires its second anyon. */
  method DrawEvent(levelVec: array<char>, active: array<bool>, event: FusionEvent,
                   ghost before: seq<FusionPair>, ghost pipes: string)
    requires levelVec.Length == 2 * active.Length
    requires levelVec[..] == pipes
    requires forall p :: p in event ==> p.anyon2 < active.Length
    requires forall i :: 0 <= i < active.Length ==> active[i] == !FusedAway(before, i)
    modifies levelVec, active
    ensures forall i :: 0 <= i < levelVec.Length ==> levelVec[i] == if Covered(event, i) then Dash else pipes[i]
    ensures forall i :: 0 <= i < active.Length ==> active[i] == !FusedAway(before + event, i)
  {
    assert before + event[..0] == before;
    for j := 0 to |event|
      invariant forall i :: 0 <= i < levelVec.Length ==> levelVec[i] == if Covered(event[..j], i) then Dash else pipes[i]
      invariant forall i :: 0 <= i < active.Length ==> active[i] == !FusedAway(before + event[..j], i)
    {
      var pair := event[j];
      assert pair in event;
      DrawDashes(levelVec, 2 * pair.anyon1 + 1, 2 * pair.anyon2);
      CoveredStep(event, j);
      ghost var flags := active[..];
      active[pair.anyon2] := false;
      FusedAwayStep(before, event, j);
      forall i | 0 <= i < active.Length
        ensures active[i] == !FusedAway(before + event[..j + 1], i)
      {
        if i != pair.anyon2 {
          assert active[i] == flags[i];
        }
      }
    }
    assert event[..|event|] == event;
  }

  /** The glyphs drawn for event `k` over the pipes of the anyons active
      before it make up its line. */
  lemma LineFromGlyphs(f: Fusion, k: nat, pipes: string, glyphs: string)
    requires k < |f.events| && pipes == Row(ActiveFlags(f, k)) && |glyphs| == |pipes|
    requires forall i :: 0 <= i < |glyphs| ==> glyphs[i] == if Covered(f.events[k], i) then Dash else pipes[i]
    ensures glyphs == Line(f, k)
  {
  }

  /** The flags after event `k`'s pairs retire their second anyons are the
      flags before event `k + 1`. */
  lemma ActiveAfter(f: Fusion, k: nat, flags: seq<bool>)
    requires k < |f.events| && |flags| == |f.anyons|
    requires forall i :: 0 <= i < |flags| ==> flags[i] == !FusedAway(Flatten(f.events[..k]) + f.events[k], i)
    ensures flags == ActiveFlags(f, k + 1)
  {
    FlattenStep(f.events, k);
  }

  /** A fresh glyph buffer with a pipe at the column of each active anyon
      and a space elsewhere. */
  method DrawPipes(active: array<bool>) returns (levelVec: array<char>)
    ensures fresh(levelVec) && levelVec[..] == Row(active[..])
  {
    var n := active.Length;
    levelVec := new char[2 * n](_ => ' ');
    for i := 0 to 2 * n
      invariant forall i' :: 0 <= i' < i ==> levelVec[i'] == Row(active[..])[i']
      invariant forall i' :: i <= i' < 2 * n ==> levelVec[i'] == ' '
    {
      if i % 2 == 0 && active[i / 2] {
        levelVec[i] := '|';
      }
    }
  }

  /** Dashes from `start` up to, not including, `end`; every other glyph is
      kept. */
  method DrawDashes(levelVec: array<char>, start: nat, end: nat)
    requires end <= levelVec.Length
    modifies levelVec
    ensures forall i :: 0 <= i < levelVec.Length ==>
      levelVec[i] == if start <= i < end then Dash else old(levelVec[i])
  {
    var i := start;
    while i < end
      invariant i == start || start < i <= end
      invariant forall i' :: 0 <= i' < levelVec.Length ==>
        levelVec[i'] == if start <= i' < i then Dash else old(levelVec[i'])
    {
      levelVec[i] := Dash;
      i := i + 1;
    }
  }

  lemma CoveredStep(ps: seq<FusionPair>, j: nat)
    requires j < |ps|
    ensures forall i :: Covered(ps[..j + 1], i) <==>
      Covered(ps[..j], i) || 2 * ps[j].anyon1 + 1 <= i < 2 * ps[j].anyon2
  {
    forall i ensures Covered(ps[..j + 1], i) <==>
      Covered(ps[..j], i) || 2 * ps[j].anyon1 + 1 <= i < 2 * ps[j].anyon2
    {
      if Covered(ps[..j], i) {
        var q :| 0 <= q < j && 2 * ps[..j][q].anyon1 + 1 <= i < 2 * ps[..j][q].anyon2;
        assert ps[..j + 1][q] == ps[q];
      }
      if 2 * ps[j].anyon1 + 1 <= i < 2 * ps[j].anyon2 {
        assert ps[..j + 1][j] == ps[j];
      }
      if Covered(ps[..j + 1], i) {
        var q :| 0 <= q < j + 1 && 2 * ps[..j + 1][q].anyon1 + 1 <= i < 2 * ps[..j + 1][q].anyon2;
        if q < j {
          assert ps[..j][q] == ps[q];
        }
      }
    }
  }

  lemma FusedAwayStep(before: seq<FusionPair>, ps: seq<FusionPair>, j: nat)
    requires j < |ps|
    ensures forall i :: FusedAway(before + ps[..j + 1], i) <==> FusedAway(before + ps[..j], i) || ps[j].anyon2 == i
  {
    assert before + ps[..j + 1] == (before + ps[..j]) + [ps[j]];
    forall i ensures FusedAway(before + ps[..j + 1], i) <==> FusedAway(before + ps[..j], i) || ps[j].anyon2 == i
    {
      var all, init := before + ps[..j + 1], before + ps[..j];
      if FusedAway(init, i) {
        var q :| 0 <= q < |init| && init[q].anyon2 == i;
        assert all[q] == init[q];
      }
      if ps[j].anyon2 == i {
        assert all[|init|] == ps[j];
      }
      if FusedAway(all, i) {
        var q :| 0 <= q < |all| && all[q].anyon2 == i;
        if q < |init| {
          assert init[q] == all[q];
        }
      }
    }
  }

  /** Before any event every anyon is active, so the second row is the
      activity row of the start. */
  lemma PipeRowIsStart(f: Fusion)
    ensures PipeRow(|f.anyons|) == Row(ActiveFlags(f, 0))
  {
    assert f.events[..0] == [];
    assert Flatten([]) == [];
  }

  /** Each pair of an event draws dashes from just right of its first
      anyon's column up to its second anyon's column. */
  lemma {:induction false} LineDashes(f: Fusion, k: nat, p: FusionPair)
    requires SecondsInRange(f)
    requires k < |f.events| && p in f.events[k]
    ensures forall i :: 2 * p.anyon1 + 1 <= i < 2 * p.anyon2 ==> Line(f, k)[i] == Dash
  {
    var q :| 0 <= q < |f.events[k]| && f.events[k][q] == p;
    forall i | 2 * p.anyon1 + 1 <= i < 2 * p.anyon2
      ensures Line(f, k)[i] == Dash
    {
      assert Covered(f.events[k], i);
    }
  }

  /** A column of an event line shows a pipe exactly when it is an anyon's
      column, no pair of the event dashes it and the anyon has not been
      fused away by an earlier event. */
  lemma LinePipes(f: Fusion, k: nat, i: nat)
    requires k < |f.events| && i < 2 * |f.anyons|
    ensures Line(f, k)[i] == '|' <==>
      i % 2 == 0 && !Covered(f.events[k], i) && !FusedAway(Flatten(f.events[..k]), i / 2)
  {
  }

  /** In the closing row an anyon's column is blank exactly when the anyon
      was the second anyon of some pair of some event. */
  lemma {:induction false} LastRowBlanks(f: Fusion, a: nat)
    requires a < |f.anyons|
    ensures Row(ActiveFlags(f, |f.events|))[2 * a] == ' ' <==>
      exists k, p :: 0 <= k < |f.events| && p in f.events[k] && p.anyon2 == a
  {
    var all := Flatten(f.events);
    assert f.events[..|f.events|] == f.events;
    if FusedAway(all, a) {
      var q :| 0 <= q < |all| && all[q].anyon2 == a;
      FlattenMembership(f.events, all[q]);
    }
    if exists k, p :: 0 <= k < |f.events| && p in f.events[k] && p.anyon2 == a {
      var k, p :| 0 <= k < |f.events| && p in f.events[k] && p.anyon2 == a;
      FlattenMembership(f.events, p);
      var q :| 0 <= q < |all| && all[q] == p;
    }
  }

  /** Where line `j` of the body starts when every line is `w` characters
      long: `j * w`, counted line by line. */
  function Offset(j: nat, w: nat): nat
  {
    if j == 0 then 0 else Offset(j - 1, w) + w
  }

  lemma {:induction false} OffsetIsProduct(j: nat, w: nat)
    ensures Offset(j, w) == j * w
  {
    if j > 0 {
      OffsetIsProduct(j - 1, w);
      assert (j - 1) * w + w == j * w;
    }
  }

  lemma {:induction false} OffsetMonotone(j: nat, k: nat, w: nat)
    requires j <= k
    ensures Offset(j, w) <= Offset(k, w)
  {
    if j < k {
      OffsetMonotone(j, k - 1, w);
    }
  }

  /** Appending keeps every slice of the prefix. */
  lemma SliceOfPrefix(prev: string, last: string, o: nat, w: nat)
    requires o + w <= |prev|
    ensures o + w <= |prev + last| && (prev + last)[o .. o + w] == prev[o .. o + w]
  {
  }

  /** The appended part is the slice right after the prefix. */
  lemma SliceOfSuffix(prev: string, last: string)
    ensures (prev + last)[|prev| .. |prev| + |last|] == last
  {
  }

  /** The last line of `ls` goes right after the others, and every other
      line stays where it was in the lines before it. */
  lemma AppendLine(ls: seq<string>, w: nat, j: nat)
    requires ls != [] && j < |ls| && |ls[|ls| - 1]| + 1 == w
    requires |Lines(ls[..|ls| - 1])| == Offset(|ls| - 1, w)
    requires j < |ls| - 1 ==> var init := ls[..|ls| - 1];
      Offset(j, w) + w <= |Lines(init)| && Lines(init)[Offset(j, w) .. Offset(j, w) + w] == init[j] + "\n"
    ensures Offset(j, w) + w <= |Lines(ls)|
    ensures Lines(ls)[Offset(j, w) .. Offset(j, w) + w] == ls[j] + "\n"
  {
    var init := ls[..|ls| - 1];
    var prev, last, o := Lines(init), ls[|ls| - 1] + "\n", Offset(j, w);
    assert Lines(ls) == prev + last;
    if j < |init| {
      assert ls[j] == init[j];
      SliceOfPrefix(prev, last, o, w);
    } else {
      SliceOfSuffix(prev, last);
    }
  }

  /** Lines of width `w - 1` each end `w` characters after the previous
      one: line `j` starts at `Offset(j, w)`. */
  lemma {:induction false} LinesLayout(ls: seq<string>, w: nat)
    requires forall i :: 0 <= i < |ls| ==> |ls[i]| + 1 == w
    ensures |Lines(ls)| == Offset(|ls|, w)
    ensures forall j :: 0 <= j < |ls| ==>
      Offset(j, w) + w <= |Lines(ls)| && Lines(ls)[Offset(j, w) .. Offset(j, w) + w] == ls[j] + "\n"
  {
    if ls != [] {
      LinesLayout(ls[..|ls| - 1], w);
      forall j | 0 <= j < |ls|
        ensures Offset(j, w) + w <= |Lines(ls)|
        ensures Lines(ls)[Offset(j, w) .. Offset(j, w) + w] == ls[j] + "\n"
      {
        AppendLine(ls, w, j);
      }
    }
  }

  /** The body is one line of width `2 * n` plus a newline per event, event
      `j`'s line starting at `j * (2 * n + 1)`. */
  lemma BodyLines(f: Fusion, k: nat)
    requires k <= |f.events|
    ensures |Body(f, k)| == Offset(k, 2 * |f.anyons| + 1)
    ensures forall j :: 0 <= j < k ==>
      var w, o := 2 * |f.anyons| + 1, Offset(j, 2 * |f.anyons| + 1);
      o + w <= |Body(f, k)| && Body(f, k)[o .. o + w] == Line(f, j) + "\n"
  {
    var ls, w := EventLines(f, k), 2 * |f.anyons| + 1;
    assert forall i :: 0 <= i < |ls| ==> |ls[i]| + 1 == w;
    LinesLayout(ls, w);
    assert Body(f, k) == Lines(ls);
  }

  /** The same in closed form: line `j` of the body starts at
      `j * (2 * n + 1)`. */
  lemma LineStart(f: Fusion, j: nat)
    requires j < |f.events|
    ensures var w := 2 * |f.anyons| + 1;
      j * w + w <= |Body(f, |f.events|)| &&
      Body(f, |f.events|)[j * w .. j * w + w] == Line(f, j) + "\n"
  {
    var w := 2 * |f.anyons| + 1;
    BodyLines(f, |f.events|);
    OffsetIsProduct(j, w);
    var body := Body(f, |f.events|);
    assert Offset(j, w) + w <= |body| && body[Offset(j, w) .. Offset(j, w) + w] == Line(f, j) + "\n";
  }
}

=== FILE: errors.dfy ===
/** Error values and result wrappers shared by the fusion and braiding engines. */
module Errors {

  /** The crate's error enumeration; the message text is carried but never inspected. */
  datatype Error =
    | BraidingError(message: string)
    | FusionError(message: string)
    | Other(message: string)

  /** `Result<T, Error>` of the Rust code. */
  datatype Result<T> = Ok(value: T) | Err(error: Error)

  /** `Option<T>` of the Rust code. */
  datatype Option<T> = None | Some(value: T)

  /** The outcome of an operation that may abort the process (a Rust `panic!`,
      an index out of bounds or an integer underflow). */
  datatype Run<T> = Returned(value: T) | Panicked
}

=== FILE: fusion.dfy ===
/** The fusion engine: grouping a time-stamped schedule into events, the
    running-charge walk that picks the qubit encoding, the whole-list fusion
    check and the sigma count. */
module FusionEngine {
  import opened Errors
  import opened Anyons
  import opened FusionPairs
  import opened Charges
  import opened SystemState

  /** `FusionEvent`: the pairs fused at one time step, in schedule order. */
  type FusionEvent = seq<FusionPair>

  /** `Fusion`: the anyons of the state it was built from and the schedule
      grouped into events. */
  datatype Fusion = Fusion(anyons: seq<Anyon>, events: seq<FusionEvent>)

  // ------------------------------------------------------------------
  // Grouping the schedule (`Fusion::new`)
  // ------------------------------------------------------------------

  /** The events and the last seen time after processing `ops`: a node
      whose time equals the last seen time joins event `time - 1` (a panic
      when there is no such event, or when the time is 0 and `time - 1`
      underflows); any other node opens a new event. */
  function Group(ops: seq<FusionNode>): Run<(seq<FusionEvent>, nat)>
  {
    if ops == [] then Returned(([], 0))
    else
      match Group(ops[..|ops| - 1])
      case Panicked => Panicked
      case Returned((events, prev)) =>
        var (time, op) := ops[|ops| - 1];
        if prev == time then
          if time == 0 || time - 1 >= |events| then Panicked
          else Returned((events[time - 1 := events[time - 1] + [op]], prev))
        else Returned((events + [[op]], time))
  }

  /** `Fusion::new`: walks the schedule once, pushing into the event list. */
  method NewFusion(state: State) returns (r: Run<Fusion>)
    ensures r.Panicked? <==> Group(state.fusionOps).Panicked?
    ensures r.Returned? ==> r.value == Fusion(state.anyons, Group(state.fusionOps).value.0)
  {
    var ops := state.fusionOps;
    var events: seq<FusionEvent> := [];
    var prevTime := 0;
    var i := 0;
    while i < |ops|
      invariant 0 <= i <= |ops|
      invariant Group(ops[..i]) == Returned((events, prevTime))
    {
      var (time, op) := ops[i];
      assert ops[..i + 1][..i] == ops[..i];
      if prevTime == time {
        if time == 0 || time - 1 >= |events| {
          PanicIsFinal(ops, i + 1);
          return Panicked;
        }
        events := events[time - 1 := events[time - 1] + [op]];
      } else {
        events := events + [[op]];
        prevTime := time;
      }
      i := i + 1;
    }
    assert ops[..|ops|] == ops;
    return Returned(Fusion(state.anyons, events));
  }

  /** Once the grouping has panicked on a prefix, it panics on the whole. */
  lemma {:induction false} PanicIsFinal(ops: seq<FusionNode>, k: nat)
    requires k <= |ops|
    requires Group(ops[..k]).Panicked?
    ensures Group(ops).Panicked?
    decreases |ops| - k
  {
    if k == |ops| {
      assert ops[..k] == ops;
    } else {
      assert ops[..k + 1][..k] == ops[..k];
      PanicIsFinal(ops, k + 1);
    }
  }

  /** A schedule whose first time is 0 panics. */
  lemma {:induction false} ZeroFirstTimePanics(ops: seq<FusionNode>)
    requires |ops| > 0 && ops[0].0 == 0
    ensures Group(ops).Panicked?
  {
    assert ops[..1][..0] == [];
    PanicIsFinal(ops, 1);
  }

  /** A time repeated right after a gap panics: times 2, 2 open one event
      and then index event 1, which does not exist. */
  lemma {:induction false} RepeatAfterGapPanics(p: FusionPair, q: FusionPair)
    ensures Group([(2, p), (2, q)]).Panicked?
  {
    var ops: seq<FusionNode> := [(2, p), (2, q)];
    var first: seq<FusionNode> := [(2, p)];
    assert first[..|first| - 1] == [];
    assert Group(first[..|first| - 1]) == Returned(([], 0));
    assert [] + [[p]] == [[p]];
    assert Group(first) == Returned(([[p]], 2));
    assert ops[..1] == first;
  }

  /** Times start at 1, never decrease and never skip a step. */
  ghost predicate Consecutive(ops: seq<FusionNode>)
  {
    (|ops| > 0 ==> ops[0].0 == 1) &&
    forall i :: 0 < i < |ops| ==> ops[i - 1].0 <= ops[i].0 <= ops[i - 1].0 + 1
  }

  /** The pairs scheduled at time `t`, in schedule order. */
  function PairsAt(ops: seq<FusionNode>, t: nat): seq<FusionPair>
  {
    if ops == [] then []
    else PairsAt(ops[..|ops| - 1], t) + if ops[|ops| - 1].0 == t then [ops[|ops| - 1].1] else []
  }

  /** All scheduled pairs, in schedule order. */
  function Pairs(ops: seq<FusionNode>): seq<FusionPair>
  {
    if ops == [] then [] else Pairs(ops[..|ops| - 1]) + [ops[|ops| - 1].1]
  }

  /** The events laid end to end. */
  function Flatten(events: seq<FusionEvent>): seq<FusionPair>
  {
    if events == [] then [] else Flatten(events[..|events| - 1]) + events[|events| - 1]
  }

  /** A pair is in the flattened events exactly when it is in one of them. */
  lemma {:induction false} FlattenMembership(events: seq<FusionEvent>, p: FusionPair)
    ensures p in Flatten(events) <==> exists k :: 0 <= k < |events| && p in events[k]
  {
    if events != [] {
      var init := events[..|events| - 1];
      FlattenMembership(init, p);
      if p in Flatten(events) && p !in events[|events| - 1] {
        var k :| 0 <= k < |init| && p in init[k];
        assert p in events[k];
      }
      if exists k :: 0 <= k < |events| && p in events[k] {
        var k :| 0 <= k < |events| && p in events[k];
        if k < |init| {
          assert p in init[k];
        }
      }
    }
  }

  /** In a consecutive schedule no pair is scheduled after the last time. */
  lemma {:induction false} NothingAfterLast(ops: seq<FusionNode>, t: nat)
    requires Consecutive(ops) && |ops| > 0
    requires t > ops[|ops| - 1].0
    ensures PairsAt(ops, t) == []
  {
    var init := ops[..|ops| - 1];
    if init != [] {
      assert Consecutive(init);
      NothingAfterLast(init, t);
    }
  }

  /** What grouping a consecutive schedule yields: no panic, one event per
      time step up to the last time, event `k` holding the pairs of time
      `k + 1`, and every pair once when laid end to end. */
  ghost predicate Grouped(ops: seq<FusionNode>)
  {
    Group(ops).Returned? &&
    var (events, prev) := Group(ops).value;
    |events| == prev && prev == (if ops == [] then 0 else ops[|ops| - 1].0) &&
    (forall k :: 0 <= k < |events| ==> events[k] == PairsAt(ops, k + 1)) &&
    Flatten(events) == Pairs(ops)
  }

  /** Adding a pair to the last event adds it at the end of the events
      laid end to end. */
  lemma FlattenJoinLast(events: seq<FusionEvent>, op: FusionPair)
    requires events != []
    ensures Flatten(events[|events| - 1 := events[|events| - 1] + [op]]) == Flatten(events) + [op]
  {
    var last := |events| - 1;
    var joined := events[last := events[last] + [op]];
    assert joined[..last] == events[..last];
  }

  /** The pairs of each time once a node at time `t` is added to the
      schedule: those before, and the node's pair at time `t`. */
  lemma PairsAtAppend(ops: seq<FusionNode>, k: nat)
    requires ops != []
    ensures PairsAt(ops, k) == PairsAt(ops[..|ops| - 1], k) + if ops[|ops| - 1].0 == k then [ops[|ops| - 1].1] else []
  {
  }

  /** A node at the last seen time joins the last event. */
  lemma JoinsLastEvent(ops: seq<FusionNode>)
    requires |ops| >= 2 && Consecutive(ops[..|ops| - 1]) && Grouped(ops[..|ops| - 1])
    requires ops[|ops| - 1].0 == ops[|ops| - 2].0
    ensures Grouped(ops)
  {
    var init := ops[..|ops| - 1];
    var (time, op) := ops[|ops| - 1];
    var (events, prev) := Group(init).value;
    assert prev == init[|init| - 1].0 == time;
    assert Flatten(events) == Pairs(init) != [];
    var joined := events[time - 1 := events[time - 1] + [op]];
    assert Group(ops).value == (joined, prev);
    forall k | 0 <= k < |joined|
      ensures joined[k] == PairsAt(ops, k + 1)
    {
      PairsAtAppend(ops, k + 1);
    }
    FlattenJoinLast(events, op);
    assert Pairs(ops) == Pairs(init) + [op];
  }

  /** A node at a later time opens a new event. */
  lemma OpensNewEvent(ops: seq<FusionNode>)
    requires |ops| >= 2 && Consecutive(ops) && Grouped(ops[..|ops| - 1])
    requires ops[|ops| - 1].0 != ops[|ops| - 2].0
    ensures Grouped(ops)
  {
    var init := ops[..|ops| - 1];
    var (time, op) := ops[|ops| - 1];
    var (events, prev) := Group(init).value;
    assert prev == init[|init| - 1].0 == ops[|ops| - 2].0;
    assert Consecutive(init);
    NothingAfterLast(init, time);
    var extended := events + [[op]];
    assert Group(ops).value == (extended, time);
    forall k | 0 <= k < |extended|
      ensures extended[k] == PairsAt(ops, k + 1)
    {
      PairsAtAppend(ops, k + 1);
    }
    assert extended[..|extended| - 1] == events;
    assert Pairs(ops) == Pairs(init) + [op];
  }

  /** For a consecutive schedule the grouping succeeds, event `k` holds
      exactly the pairs of time `k + 1` in schedule order, and the events
      laid end to end give every scheduled pair. */
  lemma {:induction false} GroupConsecutive(ops: seq<FusionNode>)
    requires Consecutive(ops)
    ensures Group(ops).Returned?
    ensures |Group(ops).value.0| == Group(ops).value.1
    ensures Group(ops).value.1 == if ops == [] then 0 else ops[|ops| - 1].0
    ensures forall k :: 0 <= k < |Group(ops).value.0| ==> Group(ops).value.0[k] == PairsAt(ops, k + 1)
    ensures Flatten(Group(ops).value.0) == Pairs(ops)
  {
    if ops != [] {
      var init := ops[..|ops| - 1];
      assert Consecutive(init);
      GroupConsecutive(init);
      assert Grouped(init);
      if init == [] {
        var (time, op) := ops[0];
        assert time == 1;
        assert Group(init) == Returned(([], 0));
        assert [] + [[op]] == [[op]];
        assert Group(ops).value == ([[op]], 1);
        assert PairsAt(ops, 1) == PairsAt(init, 1) + [op];
        assert Pairs(ops) == Pairs(init) + [op];
      } else if ops[|ops| - 1].0 == ops[|ops| - 2].0 {
        JoinsLastEvent(ops);
      } else {
        OpensNewEvent(ops);
      }
      assert Grouped(ops);
    }
  }

  // ------------------------------------------------------------------
  // The qubit encoding (`qubit_enc`)
  // ------------------------------------------------------------------

  /** `canonical_tc` of every anyon, in list order. */
  function InitialCharges(anyons: seq<Anyon>): (tcs: seq<CanonicalTC>)
    ensures |tcs| == |anyons|
    ensures forall i :: 0 <= i < |anyons| ==> tcs[i] == Canonical(anyons[i].charge)
  {
    seq(|anyons|, i requires 0 <= i < |anyons| => Canonical(anyons[i].charge))
  }

  /** Every pair names two anyons of a list of length `n`. */
  ghost predicate InRange(ps: seq<FusionPair>, n: nat)
  {
    forall p :: p in ps ==> p.anyon1 < n && p.anyon2 < n
  }

  /** Every pair of every event names two anyons of the fusion. */
  ghost predicate PairsInRange(f: Fusion)
  {
    forall k, p :: 0 <= k < |f.events| && p in f.events[k] ==> p.anyon1 < |f.anyons| && p.anyon2 < |f.anyons|
  }

  /** The running-charge walk: each pair's charge is the fusion of the two
      current charges; it is recorded for the pair (a later fusion of the
      same pair overwrites the record) and replaces the first anyon's charge. */
  function Walk(tcs: seq<CanonicalTC>, ps: seq<FusionPair>): (r: (seq<CanonicalTC>, map<FusionPair, CanonicalTC>))
    requires InRange(ps, |tcs|)
    ensures |r.0| == |tcs|
    ensures r.1.Keys == set p | p in ps
  {
    if ps == [] then (tcs, map[])
    else
      var (cur, recorded) := Walk(tcs, ps[..|ps| - 1]);
      var p := ps[|ps| - 1];
      var tc := Fuse(cur[p.anyon1], cur[p.anyon2]);
      (cur[p.anyon1 := tc], recorded[p := tc])
  }

  /** The charge recorded for each fused pair when the whole schedule is walked. */
  ghost function Recorded(f: Fusion): map<FusionPair, CanonicalTC>
    requires PairsInRange(f)
  {
    InRangeOfFlatten(f);
    Walk(InitialCharges(f.anyons), Flatten(f.events)).1
  }

  lemma InRangeOfFlatten(f: Fusion)
    requires PairsInRange(f)
    ensures InRange(Flatten(f.events), |f.anyons|)
  {
    forall p | p in Flatten(f.events)
      ensures p.anyon1 < |f.anyons| && p.anyon2 < |f.anyons|
    {
      FlattenMembership(f.events, p);
    }
  }

  /** Every prefix of the events names anyons in range. */
  lemma PrefixInRange(f: Fusion, e: nat)
    requires PairsInRange(f) && e <= |f.events|
    ensures InRange(Flatten(f.events[..e]), |f.anyons|)
  {
    forall p | p in Flatten(f.events[..e])
      ensures p.anyon1 < |f.anyons| && p.anyon2 < |f.anyons|
    {
      FlattenMembership(f.events[..e], p);
    }
  }

  /** The qubit encoding: the fused pairs whose recorded charge has no sigma
      component, in increasing order. */
  ghost function QubitEncoding(f: Fusion): seq<FusionPair>
    requires PairsInRange(f)
  {
    var recorded := Recorded(f);
    SortSet(set p | p in recorded && recorded[p][Value(Sigma)] == 0)
  }

  /** The loops of `qubit_enc`: every pair of every event, in order, fuses
      the two current charges with `apply_fusion`, records the result for
      the pair and stores it as the first anyon's new charge. */
  method RunEvents(f: Fusion) returns (tcs: seq<CanonicalTC>, recorded: map<FusionPair, CanonicalTC>)
    requires PairsInRange(f)
    ensures InRange(Flatten(f.events), |f.anyons|)
    ensures (tcs, recorded) == Walk(InitialCharges(f.anyons), Flatten(f.events))
  {
    tcs := InitialCharges(f.anyons);
    recorded := map[];
    ghost var init := tcs;
    InRangeOfFlatten(f);
    for e := 0 to |f.events|
      invariant InRange(Flatten(f.events[..e]), |init|)
      invariant Walk(init, Flatten(f.events[..e])) == (tcs, recorded)
    {
      FlattenStep(f.events, e);
      PrefixInRange(f, e + 1);
      tcs, recorded := RunEvent(tcs, recorded, f.events[e], init, Flatten(f.events[..e]));
    }
    assert f.events[..|f.events|] == f.events;
  }

  /** The inner loop of `qubit_enc` over the pairs of one event: the walk
      so far extended by the event. */
  method RunEvent(tcs0: seq<CanonicalTC>, recorded0: map<FusionPair, CanonicalTC>, event: FusionEvent,
                  ghost init: seq<CanonicalTC>, ghost done: seq<FusionPair>)
    returns (tcs: seq<CanonicalTC>, recorded: map<FusionPair, CanonicalTC>)
    requires InRange(done + event, |init|)
    requires Walk(init, done) == (tcs0, recorded0)
    ensures (tcs, recorded) == Walk(init, done + event)
  {
    tcs, recorded := tcs0, recorded0;
    assert done + event[..0] == done;
    for j := 0 to |event|
      invariant InRange(done + event[..j], |init|)
      invariant Walk(init, done + event[..j]) == (tcs, recorded)
    {
      var pair := event[j];
      WalkEventStep(init, done, event, j);
      var tc := ApplyFusion(tcs[pair.anyon1], tcs[pair.anyon2]);
      recorded := recorded[pair := tc];
      tcs := tcs[pair.anyon1 := tc];
    }
    assert event[..|event|] == event;
  }

  /** One more pair of an event walked: the charges of its two anyons
      fused, recorded for the pair and stored at its first anyon. */
  lemma WalkEventStep(init: seq<CanonicalTC>, done: seq<FusionPair>, event: FusionEvent, j: nat)
    requires InRange(done + event, |init|) && j < |event|
    ensures InRange(done + event[..j], |init|) && InRange(done + event[..j + 1], |init|)
    ensures var p := event[j];
      var (cur, recorded) := Walk(init, done + event[..j]);
      var tc := Fuse(cur[p.anyon1], cur[p.anyon2]);
      Walk(init, done + event[..j + 1]) == (cur[p.anyon1 := tc], recorded[p := tc])
  {
    var pair := event[j];
    assert pair in done + event;
    assert forall q :: q in done + event[..j] ==> q in done + event;
    assert done + event[..j + 1] == (done + event[..j]) + [pair];
    WalkAppend(init, done + event[..j], pair);
  }

  /** One more event laid end to end. */
  lemma FlattenStep(events: seq<FusionEvent>, k: nat)
    requires k < |events|
    ensures Flatten(events[..k + 1]) == Flatten(events[..k]) + events[k]
  {
    assert events[..k + 1][..k] == events[..k];
  }

  /** The `filter`, `collect` and `sort` of `qubit_enc`: the pairs whose
      recorded charge has no sigma component, taken from the map in an
      unspecified order and inserted in sorted position. */
  method SigmaFreePairs(recorded: map<FusionPair, CanonicalTC>) returns (encoding: seq<FusionPair>)
    ensures StrictlySorted(encoding)
    ensures forall p :: p in encoding <==> p in recorded && recorded[p][Value(Sigma)] == 0
  {
    encoding := [];
    var pending := recorded.Keys;
    while pending != {}
      invariant pending <= recorded.Keys
      invariant StrictlySorted(encoding)
      invariant forall p :: p in encoding <==> p in recorded && p !in pending && recorded[p][Value(Sigma)] == 0
      decreases pending
    {
      var p :| p in pending;
      if recorded[p][Value(Sigma)] == 0 {
        encoding := InsertSorted(encoding, p);
      }
      pending := pending - {p};
    }
  }

  /** `qubit_enc`: walks the events, then keeps the sigma-free pairs of the
      record in sorted order. The failure test reads the constant triple
      `[0, 0, 0]`, so it never fires. */
  method QubitEnc(f: Fusion) returns (r: Result<FusionEvent>)
    requires PairsInRange(f)
    ensures r.Ok? && r.value == QubitEncoding(f)
    ensures StrictlySorted(r.value)
    ensures forall p :: p in r.value <==> p in Flatten(f.events) && Recorded(f)[p][Value(Sigma)] == 0
  {
    var tcs, recorded := RunEvents(f);

    var finalTc := Zero;
    var sigmas, psis, vacua := finalTc[Value(Sigma)], finalTc[Value(Psi)], finalTc[Value(Vacuum)];
    var failed := sigmas == 0 && ((psis == 1 && vacua == 0) || (psis == 1 && vacua == 0));

    var encoding := SigmaFreePairs(recorded);
    SortedUnique(encoding, QubitEncoding(f));
    r := if failed then Err(FusionError("Final topological charge is not a valid qubit encoding"))
      else Ok(encoding);
  }

  // ------------------------------------------------------------------
  // A chain of sigmas fused into anyon 0
  // ------------------------------------------------------------------

  /** The charge of anyon 0 after it has absorbed `k` further sigmas. */
  function ChainCharge(k: nat): CanonicalTC
  {
    if k == 0 then Canonical(Sigma) else Fuse(ChainCharge(k - 1), Canonical(Sigma))
  }

  /** The sigma channel alternates: it vanishes exactly after an odd number
      of fusions, when psi and the vacuum are both present. */
  lemma {:induction false} ChainChargeAlternates(k: nat)
    ensures k % 2 == 1 ==> ChainCharge(k)[Value(Sigma)] == 0 && ChainCharge(k)[Value(Psi)] > 0 && ChainCharge(k)[Value(Vacuum)] > 0
    ensures k % 2 == 0 ==> ChainCharge(k)[Value(Sigma)] > 0 && ChainCharge(k)[Value(Psi)] == 0 && ChainCharge(k)[Value(Vacuum)] == 0
  {
    if k > 0 {
      ChainChargeAlternates(k - 1);
      FuseWithSigma(ChainCharge(k - 1));
    }
  }

  /** The schedule fusing anyons 1, 2, ..., k into anyon 0, one per step. */
  function ChainEvents(k: nat): (events: seq<FusionEvent>)
    ensures |events| == k && forall i :: 0 <= i < k ==> events[i] == [FusionPair(0, i + 1)]
  {
    seq(k, i requires 0 <= i < k => [FusionPair(0, i + 1)])
  }

  /** One more pair at the end of a walk. */
  lemma WalkAppend(tcs: seq<CanonicalTC>, ps: seq<FusionPair>, p: FusionPair)
    requires InRange(ps, |tcs|) && p.anyon1 < |tcs| && p.anyon2 < |tcs|
    ensures InRange(ps + [p], |tcs|)
    ensures var (cur, recorded) := Walk(tcs, ps);
      var tc := Fuse(cur[p.anyon1], cur[p.anyon2]);
      Walk(tcs, ps + [p]) == (cur[p.anyon1 := tc], recorded[p := tc])
  {
    assert (ps + [p])[..|ps|] == ps;
  }

  /** The chain schedule of `k` steps flattens to the pairs (0, 1) .. (0, k). */
  lemma ChainPairs(k: nat)
    requires k > 0
    ensures Flatten(ChainEvents(k)) == Flatten(ChainEvents(k - 1)) + [FusionPair(0, k)]
  {
    assert ChainEvents(k)[..k - 1] == ChainEvents(k - 1);
  }

  /** Walking the chain: anyon 0 holds the chain charge and the other
      anyons keep their sigma. */
  lemma {:induction false} ChainWalkCharges(tcs: seq<CanonicalTC>, k: nat)
    requires |tcs| > k
    requires forall i :: 0 <= i < |tcs| ==> tcs[i] == Canonical(Sigma)
    ensures InRange(Flatten(ChainEvents(k)), |tcs|)
    ensures Walk(tcs, Flatten(ChainEvents(k))).0[0] == ChainCharge(k)
    ensures forall i :: 0 < i < |tcs| ==> Walk(tcs, Flatten(ChainEvents(k))).0[i] == Canonical(Sigma)
  {
    if k == 0 {
      assert ChainEvents(0) == [];
    } else {
      ChainWalkCharges(tcs, k - 1);
      ChainPairs(k);
      WalkAppend(tcs, Flatten(ChainEvents(k - 1)), FusionPair(0, k));
    }
  }

  /** The record after `k` chain fusions: exactly the pairs (0, 1) .. (0, k),
      pair (0, j) holding the chain charge after j fusions. */
  ghost predicate ChainRecorded(recorded: map<FusionPair, CanonicalTC>, k: nat)
  {
    (forall p :: p in recorded <==> p.anyon1 == 0 && 1 <= p.anyon2 <= k)
    && forall j :: 1 <= j <= k ==> recorded[FusionPair(0, j)] == ChainCharge(j)
  }

  /** Recording pair (0, k) extends the recorded pairs (0, 1) .. (0, k - 1)
      by that one pair. */
  lemma ChainKeysStep(recorded: map<FusionPair, CanonicalTC>, k: nat, c: CanonicalTC)
    requires k > 0 && forall p :: p in recorded <==> p.anyon1 == 0 && 1 <= p.anyon2 <= k - 1
    ensures forall p :: p in recorded[FusionPair(0, k) := c] <==> p.anyon1 == 0 && 1 <= p.anyon2 <= k
  {
  }

  /** Recording pair (0, k) keeps the charges of the earlier pairs. */
  lemma ChainValuesStep(recorded: map<FusionPair, CanonicalTC>, k: nat)
    requires k > 0 && ChainRecorded(recorded, k - 1)
    ensures var next := recorded[FusionPair(0, k) := ChainCharge(k)];
      forall j :: 1 <= j <= k ==> FusionPair(0, j) in next && next[FusionPair(0, j)] == ChainCharge(j)
  {
    var next := recorded[FusionPair(0, k) := ChainCharge(k)];
    forall j | 1 <= j <= k ensures FusionPair(0, j) in next && next[FusionPair(0, j)] == ChainCharge(j) {
      if j < k {
        assert FusionPair(0, j) in recorded;
        assert next[FusionPair(0, j)] == recorded[FusionPair(0, j)];
      }
    }
  }

  lemma ChainRecordedStep(recorded: map<FusionPair, CanonicalTC>, k: nat)
    requires k > 0 && ChainRecorded(recorded, k - 1)
    ensures ChainRecorded(recorded[FusionPair(0, k) := ChainCharge(k)], k)
  {
    ChainKeysStep(recorded, k, ChainCharge(k));
    ChainValuesStep(recorded, k);
  }

  /** Walking the chain records, for each pair (0, j), the charge after j
      fusions, and nothing else. */
  lemma {:induction false} ChainWalkRecord(tcs: seq<CanonicalTC>, k: nat)
    requires |tcs| > k
    requires forall i :: 0 <= i < |tcs| ==> tcs[i] == Canonical(Sigma)
    ensures InRange(Flatten(ChainEvents(k)), |tcs|)
    ensures ChainRecorded(Walk(tcs, Flatten(ChainEvents(k))).1, k)
  {
    ChainWalkCharges(tcs, k);
    if k == 0 {
      assert ChainEvents(0) == [];
    } else {
      var prev := Flatten(ChainEvents(k - 1));
      ChainWalkCharges(tcs, k - 1);
      ChainWalkRecord(tcs, k - 1);
      ChainPairs(k);
      WalkAppend(tcs, prev, FusionPair(0, k));
      var (cur, recorded) := Walk(tcs, prev);
      assert Fuse(cur[0], cur[k]) == ChainCharge(k);
      ChainRecordedStep(recorded, k);
    }
  }

  /** With `n` sigmas fused in a chain into anyon 0, the encoding pairs are
      the fusions (0, j) for odd j. */
  lemma {:induction false} ChainEncodingIsOddSteps(f: Fusion, n: nat)
    requires n > 0 && |f.anyons| == n && f.events == ChainEvents(n - 1)
    requires forall i :: 0 <= i < n ==> f.anyons[i].charge == Sigma
    ensures PairsInRange(f)
    ensures forall p :: p in QubitEncoding(f) <==> p.anyon1 == 0 && 1 <= p.anyon2 < n && p.anyon2 % 2 == 1
  {
    var tcs := InitialCharges(f.anyons);
    ChainWalkRecord(tcs, n - 1);
    forall k, p | 0 <= k < |f.events| && p in f.events[k]
      ensures p.anyon1 < |f.anyons| && p.anyon2 < |f.anyons|
    {
      assert p == FusionPair(0, k + 1);
    }
    var recorded := Recorded(f);
    forall p ensures p in QubitEncoding(f) <==> p.anyon1 == 0 && 1 <= p.anyon2 < n && p.anyon2 % 2 == 1 {
      if p in recorded {
        ChainChargeAlternates(p.anyon2);
      }
    }
  }

  lemma OddBelowSix(x: nat)
    ensures 1 <= x < 6 && x % 2 == 1 <==> x == 1 || x == 3 || x == 5
  {
  }

  /** The timed schedule fusing anyon `i + 1` into anyon 0 at time `i + 1`. */
  function ChainSchedule(k: nat): (ops: seq<FusionNode>)
    ensures |ops| == k && forall i :: 0 <= i < k ==> ops[i] == (i + 1, FusionPair(0, i + 1))
  {
    seq(k, i requires 0 <= i < k => (i + 1, FusionPair(0, i + 1)))
  }

  /** Grouping the chain schedule never panics and gives one event per
      time step, event `i` holding the single pair (0, i + 1). */
  lemma {:induction false} GroupChain(k: nat)
    ensures Group(ChainSchedule(k)) == Returned((ChainEvents(k), k))
  {
    if k > 0 {
      var ops := ChainSchedule(k);
      assert ops[..k - 1] == ChainSchedule(k - 1);
      GroupChain(k - 1);
      assert ChainEvents(k - 1) + [[FusionPair(0, k)]] == ChainEvents(k);
    }
  }

  /** The schedule of the source's six-sigma example: (0 1) … (0 5) at
      times 1 … 5. */
  const SixSigmaSchedule: seq<FusionNode> := [(1, FusionPair(0, 1)), (2, FusionPair(0, 2)),
    (3, FusionPair(0, 3)), (4, FusionPair(0, 4)), (5, FusionPair(0, 5))]

  /** Six sigmas grouped into the chain events encode as (0 1), (0 3), (0 5). */
  lemma SixSigmaChainEncoding(f: Fusion)
    requires |f.anyons| == 6 && f.events == ChainEvents(5)
    requires forall i :: 0 <= i < 6 ==> f.anyons[i].charge == Sigma
    ensures PairsInRange(f)
    ensures QubitEncoding(f) == [FusionPair(0, 1), FusionPair(0, 3), FusionPair(0, 5)]
  {
    ChainEncodingIsOddSteps(f, 6);
    var expected := [FusionPair(0, 1), FusionPair(0, 3), FusionPair(0, 5)];
    var enc := QubitEncoding(f);
    forall p ensures p in enc <==> p in expected {
      OddBelowSix(p.anyon2);
    }
    assert StrictlySorted(expected) by {
      assert Less(expected[0], expected[1]) && Less(expected[1], expected[2]);
    }
    SortedUnique(enc, expected);
  }

  /** The source's six-sigma example: six sigmas whose schedule fuses
      anyons 1 to 5 into anyon 0 at times 1 to 5, grouped as `Fusion::new`
      does, give the encoding (0 1), (0 3), (0 5). */
  lemma SixSigmaEncoding(anyons: seq<Anyon>)
    requires |anyons| == 6 && forall i :: 0 <= i < 6 ==> anyons[i].charge == Sigma
    ensures Group(SixSigmaSchedule).Returned?
    ensures var f := Fusion(anyons, Group(SixSigmaSchedule).value.0);
      PairsInRange(f) && QubitEncoding(f) == [FusionPair(0, 1), FusionPair(0, 3), FusionPair(0, 5)]
  {
    assert SixSigmaSchedule == ChainSchedule(5);
    GroupChain(5);
    SixSigmaChainEncoding(Fusion(anyons, ChainEvents(5)));
  }

  // ------------------------------------------------------------------
  // The whole-list check (`verify_fusion_result`) and the sigma count
  // ------------------------------------------------------------------

  /** The product of all the anyons' charges, folded left in list order. */
  function OverallCharge(anyons: seq<Anyon>): CanonicalTC
    requires |anyons| > 0
  {
    FoldFuse(InitialCharges(anyons))
  }

  /** `verify_fusion_result`: every component present in the initial charge
      must be present in the overall fusion of the anyons. */
  function VerifyFusionResult(f: Fusion, initCharge: TopoCharge): (b: bool)
    requires |f.anyons| > 0
    ensures b <==> OverallCharge(f.anyons)[Value(initCharge)] > 0
  {
    var overall := FoldFuse(InitialCharges(f.anyons));
    var init := Canonical(initCharge);
    CanonicalIsOneHot(initCharge);
    forall k :: 0 <= k < 3 ==> init[k] <= 0 || overall[k] > 0
  }

  /** The check does not depend on the order of the anyons: exchanging two
      neighbours, and so any reordering, keeps its answer. */
  lemma FusionResultOrderFree(f: Fusion, k: nat, c: TopoCharge)
    requires k + 1 < |f.anyons|
    ensures VerifyFusionResult(Fusion(Exchange(f.anyons, k, k + 1), f.events), c) == VerifyFusionResult(f, c)
  {
    var cs := InitialCharges(f.anyons);
    assert InitialCharges(Exchange(f.anyons, k, k + 1)) == cs[k := cs[k + 1]][k + 1 := cs[k]];
    FoldFuseSwapAdjacent(cs, k);
  }

  /** The source's five-anyon example sigma, sigma, psi, 1, 1: the overall
      charge is psi + 1, so psi and the vacuum are possible and sigma is not. */
  lemma {:induction false} FiveAnyonFusionResult(f: Fusion)
    requires |f.anyons| == 5
    requires f.anyons[0].charge == Sigma && f.anyons[1].charge == Sigma && f.anyons[2].charge == Psi
    requires f.anyons[3].charge == Vacuum && f.anyons[4].charge == Vacuum
    ensures VerifyFusionResult(f, Vacuum) && VerifyFusionResult(f, Psi) && !VerifyFusionResult(f, Sigma)
  {
    var cs := InitialCharges(f.anyons);
    var two := FoldTwoSigmas(cs);
    FoldFuseStep(cs, 2);
    FuseWithPsi(two);
    FoldFuseStep(cs, 3);
    FuseWithVacuum(two);
    FoldFuseStep(cs, 4);
    FuseWithVacuum(two);
    assert cs[..5] == cs;
  }

  lemma FoldTwoSigmas(cs: seq<CanonicalTC>) returns (two: CanonicalTC)
    requires |cs| >= 2 && cs[0] == Canonical(Sigma) && cs[1] == Canonical(Sigma)
    ensures two == FoldFuse(cs[..2]) && two == [1, 1, 0]
  {
    FoldFuseStep(cs, 1);
    assert cs[..1] == [cs[0]];
    FuseOfCharges();
    two := Fuse(Canonical(Sigma), Canonical(Sigma));
  }

  /** Highest `u32` value plus one. */
  const U32Limit: nat := 0x1_0000_0000

  /** `possible_sigmas` (and `minimum_possible_anyons`): the sigma counts
      that encode exactly `qubits` qubits. The arithmetic is on `u32`, so the
      counts must fit. */
  function PossibleSigmas(qubits: nat): (r: seq<nat>)
    requires 2 * qubits + 2 < U32Limit
    ensures |r| == 2
    ensures forall n :: n in r <==> n >= 1 && (n - 1) / 2 == qubits
  {
    [2 * qubits + 1, 2 * qubits + 2]
  }
}

=== FILE: fusion_pair.dfy ===
/** `FusionPair`: two anyon indices fused together, with the ordering Rust
    derives for it and its `"(a b)"` rendering. */
module FusionPairs {
  import opened Errors
  import opened Decimal

  /** Indices into the owning state's anyon list. */
  datatype FusionPair = FusionPair(anyon1: nat, anyon2: nat)

  /** The derived `Ord`: lexicographic on (anyon_1, anyon_2). */
  predicate Less(p: FusionPair, q: FusionPair)
    ensures Less(p, q) ==> p != q && p.anyon1 <= q.anyon1
  {
    p.anyon1 < q.anyon1 || (p.anyon1 == q.anyon1 && p.anyon2 < q.anyon2)
  }

  /** `Less` is a strict total order, so sorting and deduplication are well defined. */
  lemma LessIsStrictTotalOrder()
    ensures forall p :: !Less(p, p)
    ensures forall p, q, r :: Less(p, q) && Less(q, r) ==> Less(p, r)
    ensures forall p, q :: p != q ==> Less(p, q) || Less(q, p)
  {
  }

  /** Sorted in increasing order without duplicates. */
  ghost predicate StrictlySorted(s: seq<FusionPair>)
  {
    forall i, j :: 0 <= i < j < |s| ==> Less(s[i], s[j])
  }

  /** Inserts `p` at its place in a strictly sorted sequence. */
  function InsertSorted(s: seq<FusionPair>, p: FusionPair): (r: seq<FusionPair>)
    requires StrictlySorted(s)
    requires p !in s
    ensures StrictlySorted(r)
    ensures |r| == |s| + 1
    ensures forall q :: q in r <==> q in s || q == p
  {
    if s == [] then [p]
    else if Less(p, s[0]) then [p] + s
    else
      var rest := InsertSorted(s[1..], p);
      assert forall q :: q in rest ==> Less(s[0], q) by {
        forall q | q in rest ensures Less(s[0], q) {
          if q != p {
            var k :| 1 <= k < |s| && s[k] == q;
          }
        }
      }
      [s[0]] + rest
  }

  /** The strictly sorted sequence of a finite set of pairs: what collecting
      a set into a vector and sorting it yields. */
  ghost function SortSet(xs: set<FusionPair>): (r: seq<FusionPair>)
    ensures StrictlySorted(r)
    ensures forall p :: p in r <==> p in xs
    decreases xs
  {
    if xs == {} then []
    else
      var p :| p in xs;
      InsertSorted(SortSet(xs - {p}), p)
  }

  /** The head of a strictly sorted sequence is its least element. */
  lemma HeadIsLeast(s: seq<FusionPair>, p: FusionPair)
    requires StrictlySorted(s)
    requires p in s
    ensures p == s[0] || Less(s[0], p)
  {
  }

  lemma SameElementsSameEmptiness(s: seq<FusionPair>, t: seq<FusionPair>)
    requires forall p :: p in s <==> p in t
    ensures |s| == 0 <==> |t| == 0
  {
    if |s| > 0 {
      assert s[0] in t;
    }
    if |t| > 0 {
      assert t[0] in s;
    }
  }

  /** A strictly sorted sequence is determined by its elements. */
  lemma {:induction false} SortedUnique(s: seq<FusionPair>, t: seq<FusionPair>)
    requires StrictlySorted(s) && StrictlySorted(t)
    requires forall p :: p in s <==> p in t
    ensures s == t
    decreases |s|
  {
    SameElementsSameEmptiness(s, t);
    if |s| > 0 {
      // both heads are the least element of the common set
      HeadIsLeast(t, s[0]);
      HeadIsLeast(s, t[0]);
      assert s[0] == t[0];
      assert s == [s[0]] + s[1..];
      assert t == [t[0]] + t[1..];
      forall p ensures p in s[1..] <==> p in t[1..] {
        if p in s[1..] {
          var k :| 1 <= k < |s| && s[k] == p;
          assert Less(s[0], p) && p in t && p != t[0];
        }
        if p in t[1..] {
          var k :| 1 <= k < |t| && t[k] == p;
          assert Less(t[0], p) && p in s && p != s[0];
        }
      }
      SortedUnique(s[1..], t[1..]);
    }
  }

  /** `FusionPair::__str__`: `"(a b)"`. */
  function Render(p: FusionPair): (s: string)
    ensures |s| >= 5 && s[0] == '(' && s[|s| - 1] == ')'
  {
    "(" + NatToString(p.anyon1) + " " + NatToString(p.anyon2) + ")"
  }

  /** Index of the first space at or after `i`. */
  function FindSpace(s: string, i: nat): (r: Option<nat>)
    requires i <= |s|
    ensures r.Some? ==> i <= r.value < |s| && s[r.value] == ' '
    ensures r.Some? ==> forall j :: i <= j < r.value ==> s[j] != ' '
    ensures r.None? ==> forall j :: i <= j < |s| ==> s[j] != ' '
    decreases |s| - i
  {
    if i == |s| then None
    else if s[i] == ' ' then Some(i)
    else FindSpace(s, i + 1)
  }

  /** Reads `"(a b)"` back into a pair. */
  function ParsePair(s: string): Option<FusionPair>
  {
    if |s| < 2 || s[0] != '(' || s[|s| - 1] != ')' then None
    else
      var body := s[1..|s| - 1];
      match FindSpace(body, 0)
      case None => None
      case Some(k) =>
        var left := body[..k];
        var right := body[k + 1..];
        if IsNumeral(left) && IsNumeral(right)
        then Some(FusionPair(DecimalValue(left), DecimalValue(right)))
        else None
  }

  /** A numeral followed by a space and more text splits at that space. */
  lemma SplitAtSpace(a: string, b: string)
    requires IsNumeral(a)
    ensures var body := a + " " + b;
      FindSpace(body, 0) == Some(|a|) && body[..|a|] == a && body[|a| + 1..] == b
  {
    var body := a + " " + b;
    assert body[|a|] == ' ';
    assert forall j :: 0 <= j < |a| ==> body[j] == a[j];
  }

  /** Text wrapped in parentheses unwraps to itself. */
  lemma Unwrap(x: string)
    ensures var s := "(" + x + ")";
      |s| >= 2 && s[0] == '(' && s[|s| - 1] == ')' && s[1..|s| - 1] == x
  {
  }

  /** The rendering of a pair reads back as that pair. */
  lemma RenderRoundTrip(p: FusionPair)
    ensures ParsePair(Render(p)) == Some(p)
  {
    var a := NatToString(p.anyon1);
    var b := NatToString(p.anyon2);
    var body := a + " " + b;
    assert Render(p) == "(" + body + ")";
    Unwrap(body);
    SplitAtSpace(a, b);
    DecimalRoundTrip(p.anyon1);
    DecimalRoundTrip(p.anyon2);
  }
}

=== FILE: math.dfy ===
/** The Kronecker (tensor) product of two matrices, over integer entries. */
module KronMath {

  lemma MulLe(x: nat, y: nat, z: nat)
    requires x <= y
    ensures x * z <= y * z
  {
  }

  /** Block `i` of `blocks` blocks of size `n` ends inside the matrix. */
  lemma BlockFits(i: nat, n: nat, blocks: nat)
    requires i < blocks
    ensures i * n + n <= blocks * n
  {
    MulLe(i + 1, blocks, n);
  }

  /** An offset below `n` from block start `i'` lies outside block `i`. */
  lemma OutsideBlock(i': nat, k: nat, i: nat, n: nat)
    requires k < n && i' != i
    ensures !(i * n <= i' * n + k < i * n + n)
  {
    if i' < i {
      MulLe(i' + 1, i, n);
    } else {
      MulLe(i + 1, i', n);
    }
  }

  /** A row (column) of the product splits into the block index and the
      offset inside the block. */
  lemma DivModSplit(r: nat, n: nat, blocks: nat)
    requires r < blocks * n
    ensures 0 < n && r / n < blocks && (r / n) * n <= r < (r / n) * n + n && r - (r / n) * n == r % n
  {
    if r / n >= blocks {
      MulLe(blocks, r / n, n);
    }
  }

  /** The block index of a row (column) of the product names a block. */
  lemma BlockIndex(r: nat, n: nat, blocks: nat)
    requires r < blocks * n
    ensures 0 < n && r / n < blocks
  {
    DivModSplit(r, n, blocks);
  }

  /** Entry `(r, c)` of the Kronecker product of `a` and `b`: the entry of
      `a` naming the block `(r, c)` lies in, times the entry of `b` at its
      offset inside that block. */
  function KronEntry(a: array2<int>, b: array2<int>, r: nat, c: nat): int
    reads a, b
    requires r < a.Length0 * b.Length0 && c < a.Length1 * b.Length1
  {
    BlockIndex(r, b.Length0, a.Length0);
    BlockIndex(c, b.Length1, a.Length1);
    a[r / b.Length0, c / b.Length1] * b[r % b.Length0, c % b.Length1]
  }

  /** The `b`-sized window of `m` at `(row, col)` lies inside `m` and is
      `s` times `b`. */
  ghost predicate Filled(m: array2<int>, b: array2<int>, row: nat, col: nat, s: int)
    reads m, b
  {
    row + b.Length0 <= m.Length0 && col + b.Length1 <= m.Length1 &&
    forall r, c :: row <= r < row + b.Length0 && col <= c < col + b.Length1 ==>
      m[r, c] == s * b[r - row, c - col]
  }

  /** Block `(i, j)` of `m` lies inside `m` and is `s` times `b`. */
  ghost predicate BlockHolds(m: array2<int>, b: array2<int>, i: nat, j: nat, s: int)
    reads m, b
  {
    Filled(m, b, i * b.Length0, j * b.Length1, s)
  }

  /** The innermost loop of `kronecker`: the cells of matrix row `row`
      from column `col` on become `s` times row `k` of `b`; every other cell
      keeps its value. */
  method FillRow(m: array2<int>, b: array2<int>, row: nat, col: nat, k: nat, s: int)
    requires m != b && k < b.Length0
    requires row < m.Length0 && col + b.Length1 <= m.Length1
    modifies m
    ensures forall c :: col <= c < col + b.Length1 ==> m[row, c] == s * b[k, c - col]
    ensures forall r, c :: 0 <= r < m.Length0 && 0 <= c < m.Length1 ==>
      (r == row && col <= c < col + b.Length1) || m[r, c] == old(m[r, c])
  {
    for l := 0 to b.Length1
      invariant forall c :: col <= c < col + l ==> m[row, c] == s * b[k, c - col]
      invariant forall r, c :: 0 <= r < m.Length0 && 0 <= c < m.Length1 ==>
        (r == row && col <= c < col + l) || m[r, c] == old(m[r, c])
    {
      m[row, col + l] := s * b[k, l];
    }
  }

  /** The two inner loops of `kronecker` for one block: the window at
      `(row, col)` becomes `s` times `b`; every cell outside it keeps its
      value. */
  method FillWindow(m: array2<int>, b: array2<int>, row: nat, col: nat, s: int)
    requires m != b
    requires row + b.Length0 <= m.Length0 && col + b.Length1 <= m.Length1
    modifies m
    ensures Filled(m, b, row, col, s)
    ensures forall r, c :: 0 <= r < m.Length0 && 0 <= c < m.Length1 ==>
      (row <= r < row + b.Length0 && col <= c < col + b.Length1) || m[r, c] == old(m[r, c])
  {
    for k := 0 to b.Length0
      invariant forall r, c :: row <= r < row + k && col <= c < col + b.Length1 ==> m[r, c] == s * b[r - row, c - col]
      invariant forall r, c :: 0 <= r < m.Length0 && 0 <= c < m.Length1 ==>
        (row <= r < row + k && col <= c < col + b.Length1) || m[r, c] == old(m[r, c])
    {
      label Before:
      FillRow(m, b, row + k, col, k, s);
      forall r, c | row <= r < row + k + 1 && col <= c < col + b.Length1
        ensures m[r, c] == s * b[r - row, c - col]
      {
        if r < row + k {
          assert m[r, c] == old@Before(m[r, c]);
        } else {
          assert r - row == k && m[row + k, c] == s * b[k, c - col];
        }
      }
    }
  }

  /** Filling block `(i, j)`: it becomes `s` times `b`, and every other
      block that held a multiple of `b` still holds it. */
  method FillBlock(m: array2<int>, b: array2<int>, i: nat, j: nat, s: int)
    requires m != b
    requires i * b.Length0 + b.Length0 <= m.Length0 && j * b.Length1 + b.Length1 <= m.Length1
    modifies m
    ensures BlockHolds(m, b, i, j, s)
    ensures forall i': nat, j': nat, s': int :: (i' != i || j' != j) && old(BlockHolds(m, b, i', j', s')) ==>
      BlockHolds(m, b, i', j', s')
  {
    var bRows, bCols := b.Length0, b.Length1;
    var row, col := i * bRows, j * bCols;
    FillWindow(m, b, row, col, s);
    forall i': nat, j': nat, s': int | (i' != i || j' != j) && old(BlockHolds(m, b, i', j', s'))
      ensures BlockHolds(m, b, i', j', s')
    {
      var row', col' := i' * bRows, j' * bCols;
      forall r, c | row' <= r < row' + bRows && col' <= c < col' + bCols
        ensures m[r, c] == s' * b[r - row', c - col']
      {
        if i' != i {
          OutsideBlock(i', r - row', i, bRows);
        } else {
          OutsideBlock(j', c - col', j, bCols);
        }
        assert old(m[r, c]) == s' * b[r - row', c - col'];
      }
    }
  }

  /** The loop over `j` of `kronecker` for one `i`: blocks `(i, 0)` up to
      `(i, a_cols - 1)` become `a[i, j]` times `b`; blocks of other rows
      that held a multiple of `b` still hold it. */
  method FillBlockRow(m: array2<int>, a: array2<int>, b: array2<int>, i: nat)
    requires m != a && m != b && i < a.Length0
    requires m.Length0 == a.Length0 * b.Length0 && m.Length1 == a.Length1 * b.Length1
    modifies m
    ensures forall j :: 0 <= j < a.Length1 ==> BlockHolds(m, b, i, j, a[i, j])
    ensures forall i': nat, j': nat, s': int :: i' != i && old(BlockHolds(m, b, i', j', s')) ==>
      BlockHolds(m, b, i', j', s')
  {
    BlockFits(i, b.Length0, a.Length0);
    for j := 0 to a.Length1
      invariant forall j' :: 0 <= j' < j ==> BlockHolds(m, b, i, j', a[i, j'])
      invariant forall i': nat, j': nat, s': int :: i' != i && old(BlockHolds(m, b, i', j', s')) ==>
        BlockHolds(m, b, i', j', s')
    {
      BlockFits(j, b.Length1, a.Length1);
      FillBlock(m, b, i, j, a[i, j]);
    }
  }

  /** The loop over `i` of `kronecker`: every block `(i, j)` becomes
      `a[i, j]` times `b`. */
  method FillBlocks(m: array2<int>, a: array2<int>, b: array2<int>)
    requires m != a && m != b
    requires m.Length0 == a.Length0 * b.Length0 && m.Length1 == a.Length1 * b.Length1
    modifies m
    ensures forall i, j :: 0 <= i < a.Length0 && 0 <= j < a.Length1 ==> BlockHolds(m, b, i, j, a[i, j])
  {
    for i := 0 to a.Length0
      invariant forall i', j' :: 0 <= i' < i && 0 <= j' < a.Length1 ==> BlockHolds(m, b, i', j', a[i', j'])
    {
      FillBlockRow(m, a, b, i);
    }
  }

  /** `DMatrix::zeros`: a fresh matrix of the given shape, every entry 0. */
  method Zeros(rows: nat, cols: nat) returns (m: array2<int>)
    ensures fresh(m) && m.Length0 == rows && m.Length1 == cols
    ensures forall r, c :: 0 <= r < rows && 0 <= c < cols ==> m[r, c] == 0
  {
    m := new int[rows, cols]((_, _) => 0);
  }

  /** `kronecker`: a zero matrix of `a_rows * b_rows` by `a_cols * b_cols`
      whose block `(i, j)` is filled with `a[i, j]` times `b`. */
  method Kronecker(a: array2<int>, b: array2<int>) returns (m: array2<int>)
    ensures fresh(m)
    ensures m.Length0 == a.Length0 * b.Length0 && m.Length1 == a.Length1 * b.Length1
    ensures forall i, j :: 0 <= i < a.Length0 && 0 <= j < a.Length1 ==> BlockHolds(m, b, i, j, a[i, j])
    ensures forall r: nat, c: nat :: r < m.Length0 && c < m.Length1 ==> m[r, c] == KronEntry(a, b, r, c)
    ensures a.Length0 == 1 && a.Length1 == 1 ==>
      m.Length0 == b.Length0 && m.Length1 == b.Length1 &&
      forall r, c :: 0 <= r < m.Length0 && 0 <= c < m.Length1 ==> m[r, c] == a[0, 0] * b[r, c]
  {
    var aRows, aCols := a.Length0, a.Length1;
    var bRows, bCols := b.Length0, b.Length1;
    m := Zeros(aRows * bRows, aCols * bCols);
    FillBlocks(m, a, b);
    EntriesFromBlocks(m, a, b);
    if aRows == 1 && aCols == 1 {
      ScalarLeft(m, a, b);
    }
  }

  /** A 1 by 1 left operand scales the right one. */
  lemma ScalarLeft(m: array2<int>, a: array2<int>, b: array2<int>)
    requires a.Length0 == 1 && a.Length1 == 1
    requires m.Length0 == a.Length0 * b.Length0 && m.Length1 == a.Length1 * b.Length1
    requires forall r: nat, c: nat :: r < m.Length0 && c < m.Length1 ==> m[r, c] == KronEntry(a, b, r, c)
    ensures m.Length0 == b.Length0 && m.Length1 == b.Length1
    ensures forall r, c :: 0 <= r < m.Length0 && 0 <= c < m.Length1 ==> m[r, c] == a[0, 0] * b[r, c]
  {
    forall r, c | 0 <= r < m.Length0 && 0 <= c < m.Length1
      ensures m[r, c] == a[0, 0] * b[r, c]
    {
      assert r / b.Length0 == 0 && r % b.Length0 == r;
      assert c / b.Length1 == 0 && c % b.Length1 == c;
    }
  }

  /** A cell inside block `(i, j)` holds `s` times the entry of `b` at its
      offset. */
  lemma EntryOfBlock(m: array2<int>, b: array2<int>, i: nat, j: nat, s: int, r: nat, c: nat)
    requires BlockHolds(m, b, i, j, s)
    requires i * b.Length0 <= r < i * b.Length0 + b.Length0 && j * b.Length1 <= c < j * b.Length1 + b.Length1
    ensures m[r, c] == s * b[r - i * b.Length0, c - j * b.Length1]
  {
  }

  /** One entry of a matrix whose blocks are all filled: the entry of `a`
      naming its block times the entry of `b` at its offset. */
  lemma EntryAt(m: array2<int>, a: array2<int>, b: array2<int>, r: nat, c: nat)
    requires m.Length0 == a.Length0 * b.Length0 && m.Length1 == a.Length1 * b.Length1
    requires r < m.Length0 && c < m.Length1
    requires forall i, j :: 0 <= i < a.Length0 && 0 <= j < a.Length1 ==> BlockHolds(m, b, i, j, a[i, j])
    ensures m[r, c] == KronEntry(a, b, r, c)
  {
    DivModSplit(r, b.Length0, a.Length0);
    DivModSplit(c, b.Length1, a.Length1);
    var i, j := r / b.Length0, c / b.Length1;
    EntryOfBlock(m, b, i, j, a[i, j], r, c);
  }

  /** With every block filled, each entry is the product of the entry of
      `a` naming its block and the entry of `b` at its offset. */
  lemma EntriesFromBlocks(m: array2<int>, a: array2<int>, b: array2<int>)
    requires m.Length0 == a.Length0 * b.Length0 && m.Length1 == a.Length1 * b.Length1
    requires forall i, j :: 0 <= i < a.Length0 && 0 <= j < a.Length1 ==> BlockHolds(m, b, i, j, a[i, j])
    ensures forall r: nat, c: nat :: r < m.Length0 && c < m.Length1 ==> m[r, c] == KronEntry(a, b, r, c)
  {
    forall r: nat, c: nat | r < m.Length0 && c < m.Length1
      ensures m[r, c] == KronEntry(a, b, r, c)
    {
      EntryAt(m, a, b, r, c);
    }
  }
}

=== FILE: state.dfy ===
/** The system state: the anyon list, the time-stamped fusion schedule and
    the state-vector container with its size arithmetic. */
module SystemState {
  import opened Errors
  import opened Anyons
  import opened FusionPairs

  /** `FusionNode`: a fusion pair scheduled at a time step (a `u32`). */
  type FusionNode = (nat, FusionPair)

  /** Two to the power `k`. */
  function Pow2(k: nat): (r: nat)
    ensures r >= 1
  {
    if k == 0 then 1 else 2 * Pow2(k - 1)
  }

  /** Number of values of a 64-bit `usize`. */
  const Word: nat := Pow2(64)

  /** `x << k` on a 64-bit `usize`: bits shifted past the top are lost.
      A shift by 64 or more panics, hence the precondition. */
  function Shl(x: nat, k: nat): (r: nat)
    requires k < 64
    ensures r < Word
  {
    (x * Pow2(k)) % Word
  }

  /** `2^(a+b) = 2^a * 2^b`, in the form the proofs below use. */
  lemma {:induction false} Pow2Grows(j: nat, k: nat)
    requires j <= k
    ensures Pow2(j) * Pow2(k - j) == Pow2(k)
    decreases k
  {
    if j < k {
      Pow2Grows(j, k - 1);
      assert Pow2(k - j) == 2 * Pow2(k - 1 - j);
    }
  }

  lemma {:induction false} Pow2Below(j: nat, k: nat)
    requires j < k
    ensures Pow2(j) < Pow2(k)
    decreases k
  {
    if j < k - 1 {
      Pow2Below(j, k - 1);
    }
  }

  lemma Pow2Sixteen()
    ensures Pow2(16) == 0x1_0000
  {
    assert Pow2(8) == 256;
    Pow2Grows(8, 16);
  }

  lemma Pow2ThirtyTwo()
    ensures Pow2(32) == 0x1_0000_0000
  {
    Pow2Sixteen();
    Pow2Grows(16, 32);
  }

  /** The word holds 2^64 values. */
  lemma WordValue()
    ensures Word == 0x1_0000_0000_0000_0000
  {
    Pow2ThirtyTwo();
    Pow2Grows(32, 64);
  }

  lemma ModSmall(x: nat, m: nat)
    requires x < m
    ensures x % m == x
  {
  }

  /** Below the word size, `2 << k` is the power `2^(k+1)`. */
  lemma {:induction false} ShlTwoIsPower(k: nat)
    requires k < 63
    ensures Shl(2, k) == Pow2(k + 1)
  {
    Pow2Below(k + 1, 64);
    assert 2 * Pow2(k) == Pow2(k + 1);
    ModSmall(Pow2(k + 1), Word);
  }

  /** `2 << 63` shifts the only bit out: the size wraps to zero. */
  lemma ShlTwoOverflows()
    ensures Shl(2, 63) == 0
  {
    assert 2 * Pow2(63) == Word;
  }

  /** A complex amplitude; the model stores amplitudes but never computes
      with them. */
  datatype Amplitude = Amplitude(re: real, im: real)

  const ZeroAmp := Amplitude(0.0, 0.0)
  const OneAmp := Amplitude(1.0, 0.0)

  function Zeros(n: nat): (z: seq<Amplitude>)
    ensures |z| == n && forall i :: 0 <= i < n ==> z[i] == ZeroAmp
  {
    seq(n, _ => ZeroAmp)
  }

  /** A sequence agreeing with `values` on its front and with `before`
      after it is `values` followed by the rest of `before`. */
  lemma PrefixOverwritten<T>(after: seq<T>, before: seq<T>, values: seq<T>)
    requires |after| == |before| && |values| <= |after|
    requires forall k :: 0 <= k < |values| ==> after[k] == values[k]
    requires forall k :: |values| <= k < |after| ==> after[k] == before[k]
    ensures after == values + before[|values|..]
  {
  }

  /** Writes `values` over the front of `dst`, entry by entry. */
  method CopyPrefix(dst: array<Amplitude>, values: seq<Amplitude>)
    requires |values| <= dst.Length
    modifies dst
    ensures dst[..] == values + old(dst[..])[|values|..]
  {
    for i := 0 to |values|
      invariant forall k :: 0 <= k < i ==> dst[k] == values[k]
      invariant forall k :: i <= k < dst.Length ==> dst[k] == old(dst[k])
    {
      dst[i] := values[i];
    }
    PrefixOverwritten(dst[..], old(dst[..]), values);
  }

  /** `StateVec`: an amplitude buffer and its recorded size. */
  class StateVec {
    var vec: array<Amplitude>
    var initSize: nat

    /** `StateVec::new`: the size is `2 << (qubitNum - 1)`; a given vector is
        copied into the front of a zero buffer, otherwise even positions hold
        one and odd positions zero. Normalisation is not modelled. */
    constructor(qubitNum: nat, input: Option<seq<Amplitude>>)
      requires 1 <= qubitNum <= 64
      requires input.Some? ==> |input.value| <= Shl(2, qubitNum - 1)
      ensures initSize == Shl(2, qubitNum - 1)
      ensures fresh(vec) && vec.Length == initSize
      ensures input.Some? ==> vec[..] == input.value + Zeros(initSize - |input.value|)
      ensures input.None? ==> forall i :: 0 <= i < initSize ==> vec[i] == if i % 2 == 0 then OneAmp else ZeroAmp
    {
      var size := Shl(2, qubitNum - 1);
      var buffer: array<Amplitude>;
      match input {
        case Some(values) =>
          buffer := new Amplitude[size](_ => ZeroAmp);
          CopyPrefix(buffer, values);
          assert buffer[..] == values + Zeros(size)[|values|..];
        case None =>
          buffer := new Amplitude[size](x => if x % 2 == 0 then OneAmp else ZeroAmp);
      }
      vec := buffer;
      initSize := size;
    }

    /** The `vec` setter: the first `|input|` entries are overwritten, the
        rest keep their values. A longer input is an index panic. */
    method SetVec(input: seq<Amplitude>)
      requires |input| <= vec.Length
      modifies vec
      ensures vec[..] == input + old(vec[..])[|input|..]
    {
      CopyPrefix(vec, input);
    }

    /** The `size` setter: the size becomes `2 << qubitNum` and the buffer is
        replaced by zeros of that length. */
    method SetSize(qubitNum: nat)
      requires qubitNum < 64
      modifies this
      ensures initSize == Shl(2, qubitNum)
      ensures fresh(vec) && vec[..] == Zeros(initSize)
    {
      initSize := Shl(2, qubitNum);
      vec := new Amplitude[initSize](_ => ZeroAmp);
    }
  }

  /** `set_size(n)` allocates twice what `StateVec::new(n)` does. */
  lemma {:induction false} SetSizeDoublesNew(n: nat)
    requires 1 <= n < 63
    ensures Shl(2, n) == 2 * Shl(2, n - 1)
  {
    ShlTwoIsPower(n);
    ShlTwoIsPower(n - 1);
  }

  /** The sequence `s` with the entries at `i` and `j` exchanged. */
  function Exchange<T>(s: seq<T>, i: nat, j: nat): (r: seq<T>)
    requires i < |s| && j < |s|
    ensures |r| == |s|
  {
    s[i := s[j]][j := s[i]]
  }

  /** Exchanging is a permutation. */
  lemma ExchangeIsPermutation<T>(s: seq<T>, i: nat, j: nat)
    requires i < |s| && j < |s|
    ensures multiset(Exchange(s, i, j)) == multiset(s)
  {
    var t := s[i := s[j]];
    assert multiset(t) == multiset(s) - multiset{s[i]} + multiset{s[j]};
    assert multiset(t[j := s[i]]) == multiset(t) - multiset{t[j]} + multiset{s[i]};
  }

  /** Exchanging is a permutation and undoes itself. */
  lemma ExchangePermutes<T>(s: seq<T>, i: nat, j: nat)
    requires i < |s| && j < |s|
    ensures multiset(Exchange(s, i, j)) == multiset(s)
    ensures Exchange(Exchange(s, i, j), i, j) == s
  {
    ExchangeIsPermutation(s, i, j);
  }

  /** `State`: the anyons of the system, the fusion schedule and the state
      vector. */
  class State {
    var anyons: seq<Anyon>
    var fusionOps: seq<FusionNode>
    var stateVec: StateVec

    /** `State::new`: no anyons, no operations, a one-qubit state vector. */
    constructor()
      ensures anyons == [] && fusionOps == []
      ensures fresh(stateVec) && stateVec.initSize == 2
    {
      anyons := [];
      fusionOps := [];
      ShlTwoIsPower(0);
      stateVec := new StateVec(1, None);
    }

    /** `add_anyon`: appends one anyon and reports success. */
    method AddAnyon(anyon: Anyon) returns (added: bool)
      modifies this
      ensures anyons == old(anyons) + [anyon]
      ensures fusionOps == old(fusionOps) && stateVec == old(stateVec)
      ensures added
    {
      anyons := anyons + [anyon];
      added := true;
    }

    /** `add_fusion_op`, which the tests call: appends one scheduled fusion. */
    method AddFusionOp(op: FusionNode)
      modifies this
      ensures fusionOps == old(fusionOps) + [op]
      ensures anyons == old(anyons) && stateVec == old(stateVec)
    {
      fusionOps := fusionOps + [op];
    }

    /** `swap_anyons`, which the braid engine calls: exchanges two anyons
        when both indices are in range and fails, changing nothing,
        otherwise. */
    method SwapAnyons(i: nat, j: nat) returns (r: Result<()>)
      modifies this
      ensures r.Ok? <==> i < |old(anyons)| && j < |old(anyons)|
      ensures r.Ok? ==> anyons == Exchange(old(anyons), i, j)
      ensures r.Err? ==> anyons == old(anyons)
      ensures fusionOps == old(fusionOps) && stateVec == old(stateVec)
    {
      if i < |anyons| && j < |anyons| {
        anyons := Exchange(anyons, i, j);
        r := Ok(());
      } else {
        r := Err(Other("anyon index out of range"));
      }
    }
  }
}
